=== FILE: README.md ===
# Top-50 playlist loader: artist deduplication and load policy

Two Python scripts (an older one, `Spotify-davila-top50v3.py`, and a newer
one, `Spotify-davila-top50v4.py`) fetch the Argentina top-50 playlist from
the Spotify API, build one flat track row per playlist item, fetch artist
metadata for artists not stored yet, and load both into two Redshift
tables, `davila_spotify_tracks` and `davila_spotify_artists`.

This project models the part of those scripts that carries logic:

- **Flattening** (`Records`): each playlist item becomes a track record
  holding only its first credited artist; an item with no artist stops the
  script.
- **Row building** (`Records`): the newer script writes eight-column track
  rows (with artist id and run date), the older one six-column rows. Artist
  rows store the genre list joined with `","` (`Genres`).
- **Artist deduplication** (`Dedup`, `DedupLoop`): a fold over the playlist
  in order. An artist id is skipped when it was fetched earlier in the run,
  when it is in the bulk snapshot of stored ids (newer script only), or when
  the per-row existence query finds it. Otherwise the artist is fetched,
  appended to the artist batch, and its id joins the run set.
  `DedupLoop.Scan` is the same loop written imperatively, proved equal to
  the fold; `DedupLoop.CollectBatches` states what it hands to the inserts.
- **Warehouse** (`Warehouse`): a state machine over named tables with the
  three statement forms the scripts issue: `CREATE TABLE` with or without
  `IF NOT EXISTS`, a multi-row `INSERT` naming its columns, and
  `SELECT id`. Each statement is committed on its own, and the first error
  stops the run.
- **A whole run** (`Pipeline`): the newer script flattens the playlist,
  creates the tables, reads the stored ids in bulk, runs the loop, inserts
  the track batch, and inserts the artist batch only when it is not empty.
  The older script creates its tables before it flattens, and reads no
  snapshot: the model reads the stored ids only to answer its per-row
  query, and after its plain `CREATE TABLE` they are always empty.

The outside world is made of parameters. The playlist is a `seq<Item>`. The
artist endpoint is a function `lookup: string -> Artist`. The run date is a
`Date`. The warehouse is a `Db` value. Lemmas that relate the batch to the
run set assume the endpoint answers with the artist that was asked for
(`Dedup.Faithful`).

Three facts about the code shape the model:

- The snapshot of stored ids is a separate membership test, and the run set
  only ever holds fetched ids. Treating the snapshot as part of the table
  would fetch and batch the same ids (`Dedup.OnlyKnownUnionMatters`), and so
  would seeding the run set with it (`Dedup.SeededRunSkipsSameIds`).
- In the newer script the snapshot and the per-row query read the same
  table, and the script writes nothing to it in between. So, when no other
  session writes the table during the run, the per-row query never finds a
  row (`Pipeline.V4PerRowQueryNeverFinds`).
- The older script creates its tables with plain `CREATE TABLE`. So a
  completed run of it always started from a warehouse with neither table.
  When no other session writes the artists table during the run, its
  per-row query therefore never finds a row either, and every distinct
  artist gets fetched (`Pipeline.V3FetchesEveryArtist`).

## Model

| member | source | states |
|---|---|---|
| Genres.JoinExamples | Spotify-davila-top50v4.py:152 | The stored genre field is `""` for no genre and the genre itself for one genre, and `["k-pop","pop"]` is stored as `"k-pop,pop"` |
| Genres.Join | Spotify-davila-top50v4.py:152 | The stored genre field starts with the first genre, and when no genre contains a comma it holds exactly one comma fewer than there are genres (none for an empty list) |
| Genres.SplitJoin | Spotify-davila-top50v4.py:152 | Splitting the stored field on `","` gives back the genre list, provided the list is non-empty and no genre contains a comma |
| Genres.JoinIsLossy | Spotify-davila-top50v3.py:124 | The join escapes nothing: a genre containing a comma is stored like two genres, and an empty list is stored like one empty genre |
| Records.Flatten | Spotify-davila-top50v4.py:35-46 | One track record per playlist item, in order, built from the item's first artist; it fails at the first item that has no artist, and every item before that one has an artist |
| Records.ToTrackRow | Spotify-davila-top50v4.py:123-132 | The row has the layout asked for and keeps the track's id, name, artist, album, popularity and duration; the eight-column row also keeps the artist id and carries the run date |
| Records.ToArtistRow | Spotify-davila-top50v4.py:148-154 | The artist row keeps the fetched artist's id, name, follower total and popularity; its genre field starts with the first genre and has one comma between each two comma-free genres |
| Records.TrackValues | Spotify-davila-top50v4.py:122-133 | The tuple written for a track row has exactly one value per column of that layout's CREATE TABLE, with matching kinds |
| Records.ArtistValues | Spotify-davila-top50v4.py:148-154 | The artist tuple fits the five artists-table columns and carries the artist id first |
| Records.WideRowKeepsTrack | Spotify-davila-top50v4.py:122-133 | The eight-column row holds every field of the track plus the run date |
| Records.NarrowRowDropsArtistId | Spotify-davila-top50v3.py:96-105 | Two six-column rows are equal exactly when their tracks agree on everything except the artist id; no date is stored |
| Records.TrackValuesRoundTrip | Spotify-davila-top50v4.py:122-133 | A stored track tuple reads back as the row it was written from |
| Records.ArtistValuesRoundTrip | Spotify-davila-top50v4.py:148-154 | A stored artist tuple reads back as the artist row it was written from |
| Records.ArtistRowGenres | Spotify-davila-top50v4.py:147-154 | The artist row keeps the fetched artist's id, and its genre field reads back as the genre list when that list is non-empty and comma-free |
| Dedup.Decide | Spotify-davila-top50v4.py:136-145 | An id is fetched if and only if it is not in the run set, not in the snapshot and not found by the per-row query; the per-row query is consulted only for ids in neither the run set nor the snapshot |
| Dedup.KnownIdSkipped | Spotify-davila-top50v4.py:122-138 | One loop step on an id in the run set or the snapshot appends the track's row, costs no query and no artist call, and adds nothing to the batch or the run set |
| Dedup.PersistedIdSkipped | Spotify-davila-top50v4.py:122-145 | One loop step on an id the per-row query finds appends the track's row; the id is queried but not fetched, not batched and not added to the run set |
| Dedup.NewIdFetched | Spotify-davila-top50v4.py:122-158 | One loop step on any other id appends the track's row, queries the id and fetches it once; its artist row is appended to the batch and the id joins the run set |
| Dedup.RunCounts | Spotify-davila-top50v4.py:122-158 | One track row per track; at most one per-row query per track; exactly one batch row per artist call, and no more calls than queries |
| Dedup.RunInvariant | Spotify-davila-top50v4.py:111-158 | After any prefix of the playlist: the batch is the fetched artists in fetch order, the run set equals the fetched ids, the fetched ids are exactly the playlist's artist ids missing from snapshot and table, none repeats, and they follow first-occurrence order |
| Dedup.RowsFollowPlaylist | Spotify-davila-top50v4.py:122-133 | Exactly one track row per playlist track, in playlist order, each built from its own track |
| Dedup.KnownIdsNeverFetched | Spotify-davila-top50v4.py:136-145 | No id in the snapshot or in the table is ever sent to the artist endpoint or appears in the batch |
| Dedup.RunSetIsBatch | Spotify-davila-top50v4.py:145-158 | The batch's ids are the fetched ids, the run set equals the set of batch ids, and no id appears in the batch twice |
| Dedup.EveryArtistAccountedFor | Spotify-davila-top50v4.py:122-158 | Every track's artist is in the snapshot, in the table or in the batch; the run set is exactly the playlist's artist ids absent from both |
| Dedup.BatchInFirstOccurrenceOrder | Spotify-davila-top50v4.py:122-158 | The batch lists new artist ids in the order of their first appearance in the playlist |
| Dedup.OnlyKnownUnionMatters | Spotify-davila-top50v4.py:137-145 | Rows, run set, fetches and batch depend only on snapshot ∪ table, never on how the known ids are split between them |
| Dedup.SeededRunSkipsSameIds | Spotify-davila-top50v4.py:111-145 | A loop whose run set starts out holding the snapshot, and which then consults only the run set and the table, emits the same rows, queries, calls and batch; its run set is the usual one plus the snapshot |
| Dedup.ShapeOnlyAffectsRows | Spotify-davila-top50v3.py:96-130 | The row layout and run date change the track rows only, never what is queried, fetched or batched |
| Dedup.QueriesOnlyForNewIds | Spotify-davila-top50v4.py:117-145 | No per-row query is issued for a snapshot id; when the snapshot covers the table, every queried id is fetched |
| Dedup.NothingNewNothingFetched | Spotify-davila-top50v4.py:136-145 | When every track's artist is already known, nothing is fetched and the batch is empty |
| Dedup.SameArtistTwice | Spotify-davila-top50v4.py:122-158 | Two tracks by one artist that is neither in the snapshot nor in the table, whatever else is stored, give two track rows and exactly one artist row and call |
| Dedup.ArtistAlreadyStored | Spotify-davila-top50v4.py:136-145 | One track whose artist is in the table gives one track row, no artist row, no artist call |
| DedupLoop.Scan | Spotify-davila-top50v4.py:110-158 | The imperative loop, with its run set, `continue` and per-row query, builds exactly the track rows, artist batch and artist calls of the fold |
| DedupLoop.CollectBatches | Spotify-davila-top50v4.py:110-158 | The imperative loop gives one row per track in order, one batch entry per call, calls exactly for the ids missing from snapshot and table, each once, and agrees with the fold |
| Warehouse.Execute | Spotify-davila-top50v4.py:58-92 | CREATE fails only when the table exists and IF NOT EXISTS is absent; an INSERT with no rows is not sent and changes nothing; any other INSERT is accepted only when every named column exists, none repeats and each tuple matches, and then appends its tuples in order; other tables are never touched, and existing rows are kept |
| Warehouse.ExecuteAll | Spotify-davila-top50v4.py:84-92 | Running statements one after another never drops a table, and an error can only come from a statement that was issued |
| Warehouse.ExecuteAllConcat | Spotify-davila-top50v4.py:84-92 | Each statement is committed on its own: running two statement lists in a row is running their concatenation, and an error in the first list stops everything after it |
| Warehouse.SelectIds | Spotify-davila-top50v4.py:117-119 | The id query succeeds exactly when the table exists and has an id column, and reports a missing table as such |
| Warehouse.SelectIdsContents | Spotify-davila-top50v4.py:117-119 | The id query returns exactly the string ids stored in the table's rows: every stored id is in the result, and nothing else is |
| Warehouse.CreateIfNotExistsIdempotent | Spotify-davila-top50v4.py:58-80 | CREATE TABLE IF NOT EXISTS never fails, keeps every existing table and its rows, and a second one changes nothing |
| Warehouse.CreateOnExistingFails | Spotify-davila-top50v3.py:42-62 | Plain CREATE TABLE on an existing table fails and changes nothing |
| Warehouse.AlignIdentity | Spotify-davila-top50v4.py:95-98 | An insert naming exactly the table's columns, in order, stores each tuple as given |
| Warehouse.ExecuteKeepsWellFormed | Spotify-davila-top50v4.py:160-169 | Statements keep every stored row as wide as its table |
| Warehouse.AppendKeepsKeyUnique | Spotify-davila-top50v4.py:165-169 | Appending rows with new, pairwise different ids keeps a table's ids unique |
| Warehouse.SelectIdsGrow | Spotify-davila-top50v4.py:160-169 | Appending rows never loses a stored id |
| Pipeline.Creates | Spotify-davila-top50v4.py:58-92 | The creation step issues two CREATE TABLE statements, tracks table first and artists table second, each with its script's column list; only the newer script adds IF NOT EXISTS |
| Pipeline.CreatedTables | Spotify-davila-top50v4.py:58-92 | A successful creation step keeps every existing table as it was and adds the missing ones empty with the script's columns; for the older script neither table existed before |
| Pipeline.CompletedRunUnfolds | Spotify-davila-top50v4.py:35-169 | A completed run flattened the playlist, created both tables without error, and then ran the id query, the loop and the inserts on the created tables |
| Pipeline.LoadCompletedUnfolds | Spotify-davila-top50v4.py:117-169 | A completed load read the stored ids, ran the loop with them, and had both inserts accepted |
| Pipeline.InsertsAppend | Spotify-davila-top50v4.py:160-169 | Two accepted inserts append the pass's track rows to the tracks table and its artist batch to the artists table, in order, each row aligned to the table's own columns |
| Pipeline.LoadAppends | Spotify-davila-top50v4.py:122-169 | A completed load keeps the stored rows and appends one row per playlist track, in playlist order, and the artist batch, in batch order |
| Pipeline.LoadEffects | Spotify-davila-top50v3.py:133-141 | A completed load keeps the set of tables and every other table, keeps the stored rows of both tables, adds one track row per track and one artist row per batch entry, and leaves the artists table alone when the batch is empty |
| Pipeline.Inserts | Spotify-davila-top50v4.py:160-169 | The track insert is always issued, with every track row; the artist insert is issued if and only if the batch is non-empty, with every batch row |
| Pipeline.V4CreationIdempotent | Spotify-davila-top50v4.py:58-92 | The newer script's creation step never fails, keeps existing tables and rows, and repeating it changes nothing |
| Pipeline.V4CreationNoOp | Spotify-davila-top50v4.py:84-92 | Once both tables exist the newer script's creation step is a no-op |
| Pipeline.V3CreationFailsWhenTracksExist | Spotify-davila-top50v3.py:42-72 | The older script's creation step fails on an existing tracks table, before changing anything |
| Pipeline.V3CreationFailsWhenArtistsExist | Spotify-davila-top50v3.py:64-72 | With only the artists table present, the older script commits the new tracks table and then fails |
| Pipeline.V3RerunFails | Spotify-davila-top50v3.py:42-72 | After a completed run of the older script, the next run stops at creating the tracks table and changes nothing |
| Pipeline.V3FetchesEveryArtist | Spotify-davila-top50v3.py:42-130 | A completed older-script run started with neither table present and fetched every distinct artist of the playlist |
| Pipeline.V4PerRowQueryNeverFinds | Spotify-davila-top50v4.py:117-145 | In the newer script every per-row query is followed by an artist fetch: the query never finds a row |
| Pipeline.VersionsAgreeOnArtists | Spotify-davila-top50v3.py:90-130 | Given the same stored ids, both scripts' loops fetch and batch the same artists in the same order |
| Pipeline.ColumnNamesDistinct | Spotify-davila-top50v4.py:58-80 | No table layout of either script names a column twice |
| Pipeline.RunCompletesOnFreshWarehouse | Spotify-davila-top50v4.py:35-169 | On a warehouse without the two tables, either script completes if and only if every playlist item credits an artist: creation, the id query and both inserts all succeed |
| Pipeline.MissingArtistAborts | Spotify-davila-top50v4.py:35-46 | An item without an artist stops the newer script before it touches the warehouse, and stops the older one after table creation but before any insert |
| Pipeline.StoredOnOwnLayout | Spotify-davila-top50v4.py:58-102 | In tables laid out as the script creates them, an inserted track or artist row is stored exactly as the tuple the script sends |
| Pipeline.CompletedRunEffects | Spotify-davila-top50v4.py:160-169 | A completed run keeps every other table untouched. The tracks table keeps the rows it had after creation and gains, in playlist order, one row per item holding that item's track fields (and, in the newer script, its artist id and the run date). The artists table keeps its rows and gains the artist batch in batch order, and stays unchanged when the batch is empty |
| Pipeline.ArtistIdsStayUnique | Spotify-davila-top50v4.py:110-169 | If the artists table held each id at most once before a completed run, it still does afterwards, for either script |
| Pipeline.EveryArtistStored | Spotify-davila-top50v4.py:122-169 | After a completed run every playlist item's first artist is stored in the artists table |
| Pipeline.V4RunWithAllArtistsStored | Spotify-davila-top50v4.py:84-169 | On a warehouse whose tables exist, whose tracks table has every column of the newer script's eight-column insert (when the playlist is non-empty), and which already stores every playlist artist, the newer script completes, fetches nothing and leaves the artists table as it was |
| Pipeline.V4RerunAddsNoArtists | Spotify-davila-top50v4.py:58-169 | Re-running the newer script on the same playlist completes again, fetches no artist, and leaves the artists table unchanged |

## Left out

- The Spotify API calls (`playlist_tracks`, `artist`) are not modelled as calls. The playlist is an input sequence and the artist endpoint is the `lookup` parameter.
- Credential loading from the environment file is configuration I/O and is not modelled.
- Other sessions writing the artists table during a run are not modelled. The ids the per-row query finds are the ids stored when the run read the table. With another writer, the per-row query could find an id the bulk read missed, and `Pipeline.V4PerRowQueryNeverFinds` and `Pipeline.V3FetchesEveryArtist` would no longer hold.
- Connection and cursor handling are not modelled. Each statement is treated as committed on its own, and the first failing statement stops the run, keeping earlier commits. Transaction rollback is not modelled.
- Primary keys are not enforced by `Warehouse.Execute`. A duplicate track id, within one run or across runs, is not rejected. For artists, the scripts never need the key: see `Pipeline.ArtistIdsStayUnique`.
- `VARCHAR(255)` widths and `INT` ranges are not checked. A value too long or too large for its column would make the real insert fail. `Warehouse.Execute` checks neither the kind nor the width of a value; the kinds are stated only by `Records.TrackValues` and `Records.ArtistValues`.
- `date.today()` is evaluated once per row in the newer script. The model passes one run date, so a run that crosses midnight is not modelled.
- The pandas DataFrame in the newer script is modelled as a plain sequence, which keeps the row order.
- Exceptions other than those modelled are not modelled. That covers network, authentication and rate-limit failures of the API, and connection failures of the warehouse. Modelled failures are: a missing first artist, an existing table on plain CREATE, and an unknown or repeated column or a tuple of the wrong width on INSERT.
- A playlist entry whose `track` is null (a removed or local track) is not modelled. The scripts would fail on it.
- An empty playlist gives a track insert with no rows. `execute_values` sends nothing for an empty list, so in the model such an insert cannot fail and changes nothing, even when the table is missing.
- Column names are an enumeration of the ten identifiers the two scripts' DDL uses (`Records.ColumnName`; `Records.SqlName` gives the SQL spelling), not free strings. Tables are still named by strings.
- INSERT column-list semantics are simplified. Columns the insert does not name become NULL, and no defaults are modelled.
- Dedup.RunSetIsBatch: the equality of the run set and the batch ids holds only when the artist endpoint returns the artist that was asked for (`Dedup.Faithful`). The scripts add the requested id to the run set but store the returned id in the batch.

## Findings

| source | as written | input that shows it | evidently intended | confidence | as-written member | corrected member |
|---|---|---|---|---|---|---|
| Spotify-davila-top50v3.py:42-72 | Tables are created with plain `CREATE TABLE`, so the creation step fails whenever a table already exists | Any second run on the same warehouse: the first run created `davila_spotify_tracks`, and the second run's first statement fails | Creation that succeeds when the tables exist, as the newer script does with `CREATE TABLE IF NOT EXISTS` | not executed | Pipeline.V3RerunFails | Pipeline.V4CreationIdempotent |

=== FILE: dedup.dfy ===
/**
 The artist-deduplication pass, as a pure fold over the flattened playlist.

 For every track, in playlist order, one track row is emitted. The track's
 first artist id is then fetched from the artist endpoint unless it was
 already fetched during this run, appears in the snapshot read in bulk
 before the loop, or is found by the per-row existence query. A fetched
 artist becomes one row of the artist batch and its id joins the run set.

 The outside world is an `Env`: the snapshot (empty for the older script),
 the ids the per-row query finds (one fixed set: the script does not write
 the artists table during the loop, and no other session is modelled), and
 the artist endpoint.
 */
module Dedup {
  import opened Records
  import opened Seqs

  datatype Env = Env(snapshot: set<string>, persisted: set<string>, lookup: string -> Artist)

  /** The state the loop carries: the track batch, the run set, the artist
      endpoint calls made, the per-row queries issued, and the artist batch. */
  datatype Pass = Pass(
    rows: seq<TrackRow>, seen: set<string>, fetched: seq<string>,
    queried: seq<string>, batch: seq<ArtistRow>)

  /** Why an artist id is skipped, or that it is fetched. */
  datatype Decision = KnownThisRun | InSnapshot | InTable | FetchNew

  /** The artist endpoint answers with the artist that was asked for. */
  ghost predicate Faithful(lookup: string -> Artist)
  {
    forall id :: lookup(id).id == id
  }

  const Empty: Pass := Pass([], {}, [], [], [])

  /** The decision for one artist id: the run set and the snapshot are consulted
      first, the per-row query only for ids neither of them holds. */
  function Decide(env: Env, seen: set<string>, id: string): (d: Decision)
    ensures d == FetchNew <==> id !in seen && id !in env.snapshot && id !in env.persisted
    ensures d == InTable <==> id !in seen && id !in env.snapshot && id in env.persisted
    ensures d == InSnapshot ==> id in env.snapshot
    ensures d == KnownThisRun ==> id in seen
  {
    if id in seen then KnownThisRun
    else if id in env.snapshot then InSnapshot
    else if id in env.persisted then InTable
    else FetchNew
  }

  /** One loop iteration: the track's row is appended; its artist id is sent
      to the per-row query only when neither the run set nor the snapshot
      holds it, and to the artist endpoint only when the query does not find
      it either, in which case the batch gains that artist and the run set
      gains the id. */
  function Step(env: Env, shape: Shape, date: Date, p: Pass, t: Track): (q: Pass)
  {
    var id := t.artistId;
    var p1 := p.(rows := p.rows + [ToTrackRow(shape, t, date)]);
    match Decide(env, p.seen, id)
    case KnownThisRun => p1
    case InSnapshot => p1
    case InTable => p1.(queried := p.queried + [id])
    case FetchNew =>
      p1.(queried := p.queried + [id],
          fetched := p.fetched + [id],
          batch := p.batch + [ToArtistRow(env.lookup(id))],
          seen := p.seen + {id})
  }

  /** The whole loop over the flattened playlist, one `Step` per track. */
  function Run(env: Env, shape: Shape, date: Date, tracks: seq<Track>): (p: Pass)
    decreases |tracks|
  {
    if |tracks| == 0 then Empty
    else Step(env, shape, date, Run(env, shape, date, tracks[..|tracks| - 1]), tracks[|tracks| - 1])
  }

  // ---------------------------------------------------------------- reference notions

  /** The first artist id of each track, in playlist order. */
  function ArtistIds(tracks: seq<Track>): (ids: seq<string>)
    ensures |ids| == |tracks|
    ensures forall i :: 0 <= i < |tracks| ==> ids[i] == tracks[i].artistId
  {
    seq(|tracks|, i requires 0 <= i < |tracks| => tracks[i].artistId)
  }

  /** The ids the artist batch will be inserted under. */
  function BatchIds(batch: seq<ArtistRow>): (ids: seq<string>)
    ensures |ids| == |batch|
    ensures forall i :: 0 <= i < |batch| ==> ids[i] == batch[i].id
  {
    seq(|batch|, i requires 0 <= i < |batch| => batch[i].id)
  }

  /** `r` lists some elements of `ids` in the order of their first occurrence there. */
  ghost predicate InFirstOccurrenceOrder(r: seq<string>, ids: seq<string>)
  {
    && (forall i :: 0 <= i < |r| ==> r[i] in ids)
    && (forall i, j :: 0 <= i < j < |r| && r[i] in ids && r[j] in ids ==>
          FirstIndex(ids, r[i]) < FirstIndex(ids, r[j]))
  }

  /** Everything the loop keeps true, stated against the tracks consumed so far. */
  ghost predicate Invariant(env: Env, tracks: seq<Track>, p: Pass)
  {
    var ids := ArtistIds(tracks);
    && |p.batch| == |p.fetched|
    && (forall i :: 0 <= i < |p.fetched| ==> p.batch[i] == ToArtistRow(env.lookup(p.fetched[i])))
    && (forall x :: x in p.seen <==> x in p.fetched)
    && (forall x :: x in p.fetched <==>
          x in ids && x !in env.snapshot && x !in env.persisted)
    && Distinct(p.fetched)
    && InFirstOccurrenceOrder(p.fetched, ids)
  }

  // ---------------------------------------------------------------- helper lemmas

  lemma ArtistIdsSnoc(tracks: seq<Track>)
    requires |tracks| > 0
    ensures ArtistIds(tracks) == ArtistIds(tracks[..|tracks| - 1]) + [tracks[|tracks| - 1].artistId]
  {
  }

  /** Appending an id to the playlist keeps every listed id's first position. */
  lemma OrderExtend(f: seq<string>, ids: seq<string>, y: string)
    requires InFirstOccurrenceOrder(f, ids)
    ensures InFirstOccurrenceOrder(f, ids + [y])
  {
    forall x | x in ids
      ensures FirstIndex(ids + [y], x) == FirstIndex(ids, x)
    {
      FirstIndexExtend(ids, y, x);
    }
  }

  /** An id occurring for the first time goes after every id listed so far. */
  lemma OrderAppendNew(f: seq<string>, ids: seq<string>, x: string)
    requires InFirstOccurrenceOrder(f, ids)
    requires x !in ids
    ensures InFirstOccurrenceOrder(f + [x], ids + [x])
  {
    OrderExtend(f, ids, x);
    FirstIndexNew(ids, x);
    var f' := f + [x];
    var ids' := ids + [x];
    forall i, j | 0 <= i < j < |f'| && f'[i] in ids' && f'[j] in ids'
      ensures FirstIndex(ids', f'[i]) < FirstIndex(ids', f'[j])
    {
      if j < |f| {
        assert f'[i] == f[i] && f'[j] == f[j];
      } else {
        assert f'[i] == f[i];
      }
    }
  }

  lemma {:induction false} StepFetchKeepsInvariant(env: Env, shape: Shape, date: Date, tracks: seq<Track>, p: Pass, t: Track)
    requires Invariant(env, tracks, p)
    requires Decide(env, p.seen, t.artistId) == FetchNew
    ensures Invariant(env, tracks + [t], Step(env, shape, date, p, t))
  {
    var ids := ArtistIds(tracks);
    var x := t.artistId;
    ArtistIdsSnoc(tracks + [t]);
    assert (tracks + [t])[..|tracks|] == tracks;
    assert ArtistIds(tracks + [t]) == ids + [x];
    assert x !in ids;
    OrderAppendNew(p.fetched, ids, x);
  }

  lemma {:induction false} StepSkipKeepsInvariant(env: Env, shape: Shape, date: Date, tracks: seq<Track>, p: Pass, t: Track)
    requires Invariant(env, tracks, p)
    requires Decide(env, p.seen, t.artistId) != FetchNew
    ensures Invariant(env, tracks + [t], Step(env, shape, date, p, t))
  {
    var ids := ArtistIds(tracks);
    ArtistIdsSnoc(tracks + [t]);
    assert (tracks + [t])[..|tracks|] == tracks;
    assert ArtistIds(tracks + [t]) == ids + [t.artistId];
    OrderExtend(p.fetched, ids, t.artistId);
  }

  /** The fold satisfies the invariant for every playlist. */
  lemma {:induction false} RunInvariant(env: Env, shape: Shape, date: Date, tracks: seq<Track>)
    ensures Invariant(env, tracks, Run(env, shape, date, tracks))
  {
    if |tracks| > 0 {
      var init := tracks[..|tracks| - 1];
      RunInvariant(env, shape, date, init);
      var p := Run(env, shape, date, init);
      var t := tracks[|tracks| - 1];
      if Decide(env, p.seen, t.artistId) == FetchNew {
        StepFetchKeepsInvariant(env, shape, date, init, p, t);
      } else {
        StepSkipKeepsInvariant(env, shape, date, init, p, t);
      }
      assert init + [tracks[|tracks| - 1]] == tracks;
    }
  }

  // ---------------------------------------------------------------- properties of one step

  /** An id already fetched this run, or held by the snapshot, costs neither a
      query nor an artist call and adds nothing to the artist batch. */
  lemma KnownIdSkipped(env: Env, shape: Shape, date: Date, p: Pass, t: Track)
    requires t.artistId in p.seen || t.artistId in env.snapshot
    ensures var q := Step(env, shape, date, p, t);
      && q.rows == p.rows + [ToTrackRow(shape, t, date)]
      && q.fetched == p.fetched && q.batch == p.batch && q.queried == p.queried && q.seen == p.seen
  {
  }

  /** An id the per-row query finds is queried once but neither fetched, nor
      batched, nor added to the run set. */
  lemma PersistedIdSkipped(env: Env, shape: Shape, date: Date, p: Pass, t: Track)
    requires t.artistId !in p.seen && t.artistId !in env.snapshot
    requires t.artistId in env.persisted
    ensures var q := Step(env, shape, date, p, t);
      && q.rows == p.rows + [ToTrackRow(shape, t, date)]
      && q.fetched == p.fetched && q.batch == p.batch && q.seen == p.seen
      && q.queried == p.queried + [t.artistId]
  {
  }

  /** Any other id is fetched once and its artist appended to the batch. */
  lemma NewIdFetched(env: Env, shape: Shape, date: Date, p: Pass, t: Track)
    requires t.artistId !in p.seen && t.artistId !in env.snapshot && t.artistId !in env.persisted
    ensures var q := Step(env, shape, date, p, t);
      && q.rows == p.rows + [ToTrackRow(shape, t, date)]
      && q.queried == p.queried + [t.artistId]
      && q.fetched == p.fetched + [t.artistId]
      && q.batch == p.batch + [ToArtistRow(env.lookup(t.artistId))]
      && q.seen == p.seen + {t.artistId}
  {
  }

  // ---------------------------------------------------------------- properties of the whole pass

  /** One track row per track; at most one per-row query per track; one batch
      row per artist call, and each call comes after a query. */
  lemma {:induction false} RunCounts(env: Env, shape: Shape, date: Date, tracks: seq<Track>)
    ensures var p := Run(env, shape, date, tracks);
      |p.rows| == |tracks| && |p.batch| == |p.fetched| <= |p.queried| <= |tracks|
  {
    if |tracks| > 0 {
      RunCounts(env, shape, date, tracks[..|tracks| - 1]);
    }
  }

  /** One track row per playlist track, in playlist order. */
  lemma {:induction false} RowsFollowPlaylist(env: Env, shape: Shape, date: Date, tracks: seq<Track>)
    ensures var rows := Run(env, shape, date, tracks).rows;
      |rows| == |tracks| && forall i :: 0 <= i < |tracks| ==> rows[i] == ToTrackRow(shape, tracks[i], date)
  {
    if |tracks| > 0 {
      RowsFollowPlaylist(env, shape, date, tracks[..|tracks| - 1]);
    }
  }

  /** Ids held by the snapshot or found by the per-row query are never sent to
      the artist endpoint, and no batch row carries them. */
  lemma KnownIdsNeverFetched(env: Env, shape: Shape, date: Date, tracks: seq<Track>)
    requires Faithful(env.lookup)
    ensures var p := Run(env, shape, date, tracks);
      && (forall x :: x in p.fetched ==> x !in env.snapshot && x !in env.persisted)
      && (forall i :: 0 <= i < |p.batch| ==>
            p.batch[i].id !in env.snapshot && p.batch[i].id !in env.persisted)
  {
    RunInvariant(env, shape, date, tracks);
  }

  /** The run set is exactly the set of ids in the artist batch, and the batch
      holds each id at most once, however many tracks credit that artist. */
  lemma RunSetIsBatch(env: Env, shape: Shape, date: Date, tracks: seq<Track>)
    requires Faithful(env.lookup)
    ensures var p := Run(env, shape, date, tracks);
      && BatchIds(p.batch) == p.fetched
      && (forall x :: x in p.seen <==> x in BatchIds(p.batch))
      && Distinct(BatchIds(p.batch))
  {
    RunInvariant(env, shape, date, tracks);
  }

  /** After the loop every track's artist is accounted for: in the snapshot, in
      the table, or in the batch; and the run set holds exactly the playlist's
      artist ids that neither the snapshot nor the table had. */
  lemma EveryArtistAccountedFor(env: Env, shape: Shape, date: Date, tracks: seq<Track>)
    requires Faithful(env.lookup)
    ensures var p := Run(env, shape, date, tracks);
      && (forall i :: 0 <= i < |tracks| ==>
            var id := tracks[i].artistId;
            id in env.snapshot || id in env.persisted || id in BatchIds(p.batch))
      && (forall x :: x in p.seen <==>
            x in ArtistIds(tracks) && x !in env.snapshot && x !in env.persisted)
  {
    RunInvariant(env, shape, date, tracks);
    RunSetIsBatch(env, shape, date, tracks);
    var ids := ArtistIds(tracks);
    forall i | 0 <= i < |tracks|
      ensures tracks[i].artistId in ids
    {
      assert ids[i] == tracks[i].artistId;
    }
  }

  /** The artist batch follows the order in which new ids first appear in the playlist. */
  lemma BatchInFirstOccurrenceOrder(env: Env, shape: Shape, date: Date, tracks: seq<Track>)
    requires Faithful(env.lookup)
    ensures InFirstOccurrenceOrder(BatchIds(Run(env, shape, date, tracks).batch), ArtistIds(tracks))
  {
    RunInvariant(env, shape, date, tracks);
    RunSetIsBatch(env, shape, date, tracks);
  }

  /** Only the union of snapshot and table matters to what is fetched and
      batched; the snapshot merely saves per-row queries. */
  lemma {:induction false} OnlyKnownUnionMatters(env: Env, shape: Shape, date: Date, tracks: seq<Track>)
    ensures var p := Run(env, shape, date, tracks);
      var u := Run(Env({}, env.snapshot + env.persisted, env.lookup), shape, date, tracks);
      p.rows == u.rows && p.seen == u.seen && p.fetched == u.fetched && p.batch == u.batch
  {
    if |tracks| > 0 {
      OnlyKnownUnionMatters(env, shape, date, tracks[..|tracks| - 1]);
    }
  }

  /** The fold started from a given pass rather than from `Empty`. */
  function RunFrom(env: Env, shape: Shape, date: Date, start: Pass, tracks: seq<Track>): (p: Pass)
    decreases |tracks|
  {
    if |tracks| == 0 then start
    else Step(env, shape, date, RunFrom(env, shape, date, start, tracks[..|tracks| - 1]), tracks[|tracks| - 1])
  }

  /** Seeding the run set with the snapshot, and then consulting only the run
      set and the table, emits the same rows and issues the same queries,
      calls and batch rows; the run set then also holds the snapshot. */
  lemma {:induction false} SeededRunSkipsSameIds(env: Env, shape: Shape, date: Date, tracks: seq<Track>)
    ensures var p := Run(env, shape, date, tracks);
      var s := RunFrom(Env({}, env.persisted, env.lookup), shape, date, Pass([], env.snapshot, [], [], []), tracks);
      && s.rows == p.rows && s.queried == p.queried && s.fetched == p.fetched && s.batch == p.batch
      && s.seen == p.seen + env.snapshot
  {
    if |tracks| > 0 {
      SeededRunSkipsSameIds(env, shape, date, tracks[..|tracks| - 1]);
    }
  }

  /** The row layout and the run date affect the track rows only, never which
      artists are queried, fetched or batched. */
  lemma {:induction false} ShapeOnlyAffectsRows(env: Env, date: Date, date': Date, tracks: seq<Track>)
    ensures var n := Run(env, Narrow, date, tracks);
      var w := Run(env, Wide, date', tracks);
      n.seen == w.seen && n.fetched == w.fetched && n.queried == w.queried && n.batch == w.batch
  {
    if |tracks| > 0 {
      ShapeOnlyAffectsRows(env, date, date', tracks[..|tracks| - 1]);
    }
  }

  /** When the snapshot is read from the same table the per-row query reads,
      the per-row query never finds anything: every id it is asked about is
      then fetched. */
  lemma {:induction false} QueriesOnlyForNewIds(env: Env, shape: Shape, date: Date, tracks: seq<Track>)
    ensures var p := Run(env, shape, date, tracks);
      forall x :: x in p.queried ==> x !in env.snapshot
    ensures env.persisted <= env.snapshot ==> Run(env, shape, date, tracks).queried == Run(env, shape, date, tracks).fetched
  {
    if |tracks| > 0 {
      QueriesOnlyForNewIds(env, shape, date, tracks[..|tracks| - 1]);
    }
  }

  /** When every track's artist is already known, nothing is fetched and the
      artist batch stays empty. */
  lemma NothingNewNothingFetched(env: Env, shape: Shape, date: Date, tracks: seq<Track>)
    requires forall i :: 0 <= i < |tracks| ==>
      tracks[i].artistId in env.snapshot || tracks[i].artistId in env.persisted
    ensures Run(env, shape, date, tracks).fetched == []
    ensures Run(env, shape, date, tracks).batch == []
  {
    RunInvariant(env, shape, date, tracks);
    var ids := ArtistIds(tracks);
    forall x | x in ids
      ensures x in env.snapshot || x in env.persisted
    {
      var i := FirstIndex(ids, x);
    }
  }

  // ---------------------------------------------------------------- scenarios

  /** Two tracks by one artist that is neither in the snapshot nor in the
      table: two track rows, one artist row, one artist call. */
  lemma SameArtistTwice(env: Env, shape: Shape, date: Date, t1: Track, t2: Track)
    requires t1.artistId == t2.artistId
    requires t1.artistId !in env.snapshot && t1.artistId !in env.persisted
    ensures var p := Run(env, shape, date, [t1, t2]);
      |p.rows| == 2 && |p.batch| == 1 && p.fetched == [t1.artistId]
  {
    assert [t1, t2][..1] == [t1];
    assert [t1][..0] == [];
    assert Run(env, shape, date, []) == Empty;
    var p1 := Run(env, shape, date, [t1]);
    assert p1 == Step(env, shape, date, Empty, t1);
    assert p1.seen == {t1.artistId};
    assert Run(env, shape, date, [t1, t2]) == Step(env, shape, date, p1, t2);
  }

  /** One track whose artist is already in the table: one track row, no artist
      row, no artist call. */
  lemma ArtistAlreadyStored(env: Env, shape: Shape, date: Date, t: Track)
    requires t.artistId in env.persisted
    ensures var p := Run(env, shape, date, [t]);
      |p.rows| == 1 && p.batch == [] && p.fetched == []
  {
    assert [t][..0] == [];
  }
}

=== FILE: dedup_loop.dfy ===
/**
 The deduplication loop written the way both scripts write it: a mutable run
 set, two growing batches, `continue` on an already-known id, and an artist
 call only when the per-row existence query finds nothing.
 */
module DedupLoop {
  import opened Records
  import opened Seqs
  import opened Dedup

  /** The loop itself: it builds exactly what the fold `Run` describes. */
  method Scan(env: Env, shape: Shape, date: Date, tracks: seq<Track>)
    returns (rows: seq<TrackRow>, batch: seq<ArtistRow>, calls: seq<string>)
    ensures var p := Run(env, shape, date, tracks);
      rows == p.rows && batch == p.batch && calls == p.fetched
  {
    rows, batch, calls := [], [], [];
    var seen: set<string> := {};
    ghost var queried: seq<string> := [];
    var i := 0;
    while i < |tracks|
      invariant 0 <= i <= |tracks|
      invariant Run(env, shape, date, tracks[..i]) == Pass(rows, seen, calls, queried, batch)
    {
      assert tracks[..i + 1][..i] == tracks[..i];
      var t := tracks[i];
      ghost var next := Step(env, shape, date, Pass(rows, seen, calls, queried, batch), t);
      assert Run(env, shape, date, tracks[..i + 1]) == next;
      rows := rows + [ToTrackRow(shape, t, date)];
      var id := t.artistId;
      if id in seen || id in env.snapshot {
        i := i + 1;
        continue;
      }
      queried := queried + [id];
      var found := id in env.persisted;
      if !found {
        var artist := env.lookup(id);
        batch := batch + [ToArtistRow(artist)];
        calls := calls + [id];
        seen := seen + {id};
      }
      i := i + 1;
    }
    assert tracks[..|tracks|] == tracks;
  }

  /** What the loop hands to the two inserts: one track row per playlist
      track, in order, and one artist row per artist call, the calls being
      exactly the distinct first-artist ids neither the snapshot nor the
      per-row query knows. */
  method CollectBatches(env: Env, shape: Shape, date: Date, tracks: seq<Track>)
    returns (rows: seq<TrackRow>, batch: seq<ArtistRow>, calls: seq<string>)
    ensures |rows| == |tracks|
    ensures forall i :: 0 <= i < |tracks| ==> rows[i] == ToTrackRow(shape, tracks[i], date)
    ensures |batch| == |calls|
    ensures forall i :: 0 <= i < |calls| ==> batch[i] == ToArtistRow(env.lookup(calls[i]))
    ensures forall x :: x in calls <==>
      x in ArtistIds(tracks) && x !in env.snapshot && x !in env.persisted
    ensures Distinct(calls)
    ensures var p := Run(env, shape, date, tracks);
      rows == p.rows && batch == p.batch && calls == p.fetched
  {
    rows, batch, calls := Scan(env, shape, date, tracks);
    RowsFollowPlaylist(env, shape, date, tracks);
    RunInvariant(env, shape, date, tracks);
  }
}

=== FILE: genres.dfy ===
/**
 The genre field of an artist row: the API's genre list flattened with
 Python's `",".join(...)`. `Split` is Python's `s.split(",")`, the reading
 a consumer of the column would use; the two are inverse only on non-empty
 lists of comma-free genres, since nothing is escaped.
 */
module Genres {

  /** The delimiter both scripts pass to `join`. */
  const Sep: char := ','

  /** `",".join(parts)`: a delimiter between each two neighbouring genres, and
      no other when no genre contains one. */
  function Join(parts: seq<string>): (r: string)
    ensures |parts| > 0 ==> parts[0] <= r
    ensures (forall i :: 0 <= i < |parts| ==> Sep !in parts[i]) ==>
      Occurrences(r, Sep) == if |parts| == 0 then 0 else |parts| - 1
  {
    if |parts| == 0 then ""
    else if |parts| == 1 then (NoSepNoOccurrences(parts[0]); parts[0])
    else
      var rest := Join(parts[1..]);
      OccurrencesConcat(parts[0], [Sep] + rest);
      OccurrencesConcat([Sep], rest);
      NoSepNoOccurrences(parts[0]);
      assert parts[0] + [Sep] + rest == parts[0] + ([Sep] + rest);
      parts[0] + [Sep] + rest
  }

  /** `s.split(",")`: one piece more than there are delimiters, none containing one. */
  function Split(s: string): (r: seq<string>)
    ensures |r| == Occurrences(s, Sep) + 1
    ensures forall i :: 0 <= i < |r| ==> Sep !in r[i]
  {
    if |s| == 0 then [""]
    else
      var rest := Split(s[1..]);
      if s[0] == Sep then [""] + rest
      else [[s[0]] + rest[0]] + rest[1..]
  }

  /** Number of positions of `s` holding `c`. */
  function Occurrences(s: string, c: char): (n: nat)
  {
    if |s| == 0 then 0
    else (if s[0] == c then 1 else 0) + Occurrences(s[1..], c)
  }

  lemma {:induction false} OccurrencesConcat(a: string, b: string)
    ensures Occurrences(a + b, Sep) == Occurrences(a, Sep) + Occurrences(b, Sep)
  {
    if |a| > 0 {
      assert (a + b)[1..] == a[1..] + b;
      OccurrencesConcat(a[1..], b);
    } else {
      assert a + b == b;
    }
  }

  lemma {:induction false} NoSepNoOccurrences(s: string)
    ensures Sep !in s ==> Occurrences(s, Sep) == 0
  {
    if |s| > 0 {
      NoSepNoOccurrences(s[1..]);
    }
  }

  /** The stored value for the documented cases: no genre, one genre, two genres. */
  lemma JoinExamples(g: string)
    ensures Join([]) == ""
    ensures Join([g]) == g
    ensures Join(["k-pop", "pop"]) == "k-pop,pop"
  {
  }

  /** A comma-free genre read back on its own is one piece. */
  lemma {:induction false} SplitWithoutSep(s: string)
    requires Sep !in s
    ensures Split(s) == [s]
  {
    if |s| > 0 {
      SplitWithoutSep(s[1..]);
      assert [s[0]] + s[1..] == s;
    }
  }

  /** Splitting stops at the first delimiter. */
  lemma {:induction false} SplitAtFirstSep(a: string, b: string)
    requires Sep !in a
    ensures Split(a + [Sep] + b) == [a] + Split(b)
  {
    var s := a + [Sep] + b;
    if |a| == 0 {
      assert s[1..] == b;
    } else {
      assert s[1..] == a[1..] + [Sep] + b;
      SplitAtFirstSep(a[1..], b);
      assert [a[0]] + a[1..] == a;
    }
  }

  /** Reading the stored field back yields the genre list, provided the list is
      non-empty and no genre contains the delimiter. */
  lemma {:induction false} SplitJoin(parts: seq<string>)
    requires |parts| > 0
    requires forall i :: 0 <= i < |parts| ==> Sep !in parts[i]
    ensures Split(Join(parts)) == parts
  {
    if |parts| == 1 {
      SplitWithoutSep(parts[0]);
    } else {
      SplitJoin(parts[1..]);
      SplitAtFirstSep(parts[0], Join(parts[1..]));
      assert [parts[0]] + parts[1..] == parts;
    }
  }

  /** Without escaping the join is lossy: a genre that contains the delimiter is
      stored exactly like two genres, and the empty list like one empty genre. */
  lemma JoinIsLossy(a: string, b: string)
    ensures Join([a + [Sep] + b]) == Join([a, b])
    ensures Join([]) == Join([""])
  {
  }
}

=== FILE: pipeline.dfy ===
/**
 One run of either script against the warehouse: flatten the playlist,
 create the two tables, deduplicate artists, insert the track batch, and
 insert the artist batch when it is not empty.

 The newer script (V4) flattens the playlist before connecting, creates
 tables with IF NOT EXISTS, reads every stored artist id in bulk before
 the loop, and writes eight-column track rows dated with the run date. The
 older script (V3) creates tables with plain CREATE TABLE, flattens inside
 the loop, has no bulk snapshot, and writes six-column track rows.
 */
module Pipeline {
  import opened Results
  import opened Seqs
  import opened Records
  import opened Dedup
  import opened Warehouse

  datatype Version = V3 | V4

  const TracksTable: string := "davila_spotify_tracks"
  const ArtistsTable: string := "davila_spotify_artists"

  datatype RunError = Sql(sql: SqlError) | MissingArtist(index: nat)

  /** A run either reaches its last commit or stops at the first failure,
      leaving whatever earlier statements committed. */
  datatype RunResult = Completed(db: Db, pass: Pass) | Aborted(db: Db, error: RunError)

  function RowShape(v: Version): (shape: Shape)
  {
    if v == V4 then Wide else Narrow
  }

  /** The row a playlist track takes in a tracks table with columns `cols`
      once the script's track insert lands: the track's values under the
      script's column names, NULL in any column the insert does not name. */
  function StoredTrack(v: Version, cols: seq<Column>, t: Track, date: Date): (row: seq<Value>)
  {
    Align(Names(cols), Names(TrackColumns(RowShape(v))), TrackValues(ToTrackRow(RowShape(v), t, date)))
  }

  /** The row a batch artist takes in an artists table with columns `cols`. */
  function StoredArtist(cols: seq<Column>, a: ArtistRow): (row: seq<Value>)
  {
    Align(Names(cols), Names(ArtistColumns), ArtistValues(a))
  }

  /** In tables laid out as the script creates them, a stored row is the
      tuple the script sends, unchanged. */
  lemma StoredOnOwnLayout(v: Version, t: Track, date: Date, a: ArtistRow)
    ensures StoredTrack(v, TrackColumns(RowShape(v)), t, date) == TrackValues(ToTrackRow(RowShape(v), t, date))
    ensures StoredArtist(ArtistColumns, a) == ArtistValues(a)
  {
    ColumnNamesDistinct();
    AlignIdentity(Names(TrackColumns(RowShape(v))), TrackValues(ToTrackRow(RowShape(v), t, date)));
    AlignIdentity(Names(ArtistColumns), ArtistValues(a));
  }

  /** Whether `after` is `before` with the given tracks appended, in order, as
      the script's track insert stores them. */
  predicate AppendedTracks(before: Table, after: Table, v: Version, tracks: seq<Track>, date: Date)
  {
    && after.columns == before.columns
    && |after.rows| == |before.rows| + |tracks|
    && before.rows <= after.rows
    && forall i :: 0 <= i < |tracks| ==>
         after.rows[|before.rows| + i] == StoredTrack(v, before.columns, tracks[i], date)
  }

  /** Whether `after` is `before` with the given artist batch appended, in order. */
  predicate AppendedArtists(before: Table, after: Table, batch: seq<ArtistRow>)
  {
    && after.columns == before.columns
    && |after.rows| == |before.rows| + |batch|
    && before.rows <= after.rows
    && forall i :: 0 <= i < |batch| ==>
         after.rows[|before.rows| + i] == StoredArtist(before.columns, batch[i])
  }

  /** The two table-creation statements, each committed on its own: the tracks
      table in the script's layout first, then the artists table; only the
      newer script adds IF NOT EXISTS. */
  function Creates(v: Version): (ss: seq<Statement>)
    ensures |ss| == 2 && ss[0].table == TracksTable && ss[1].table == ArtistsTable
    ensures forall i :: 0 <= i < |ss| ==> ss[i].CreateTable? && (ss[i].ifNotExists <==> v == V4)
    ensures ss[0].columns == TrackColumns(RowShape(v)) && ss[1].columns == ArtistColumns
  {
    [CreateTable(TracksTable, TrackColumns(RowShape(v)), v == V4),
     CreateTable(ArtistsTable, ArtistColumns, v == V4)]
  }

  function TrackTuples(rows: seq<TrackRow>): (vs: seq<seq<Value>>)
    ensures |vs| == |rows|
    ensures forall i :: 0 <= i < |rows| ==> vs[i] == TrackValues(rows[i])
  {
    seq(|rows|, i requires 0 <= i < |rows| => TrackValues(rows[i]))
  }

  function ArtistTuples(batch: seq<ArtistRow>): (vs: seq<seq<Value>>)
    ensures |vs| == |batch|
    ensures forall i :: 0 <= i < |batch| ==> vs[i] == ArtistValues(batch[i])
  {
    seq(|batch|, i requires 0 <= i < |batch| => ArtistValues(batch[i]))
  }

  /** The inserts issued after the loop: the track insert always, the artist
      insert exactly when the artist batch is not empty. */
  function Inserts(v: Version, p: Pass): (ss: seq<Statement>)
    ensures 1 <= |ss| <= 2
    ensures ss[0] == InsertValues(TracksTable, Names(TrackColumns(RowShape(v))), TrackTuples(p.rows))
    ensures |ss| == 2 <==> |p.batch| > 0
    ensures |ss| == 2 ==> ss[1] == InsertValues(ArtistsTable, Names(ArtistColumns), ArtistTuples(p.batch))
  {
    var tracks := InsertValues(TracksTable, Names(TrackColumns(RowShape(v))), TrackTuples(p.rows));
    if |p.batch| > 0
    then [tracks, InsertValues(ArtistsTable, Names(ArtistColumns), ArtistTuples(p.batch))]
    else [tracks]
  }

  /** What the loop sees: the stored ids answer the per-row query, and in the
      newer script they are also the bulk snapshot. The older script reads no
      snapshot: its stored ids are read only to stand in for the per-row
      query, and after its plain CREATE TABLE they are always empty. The script writes the
      artists table only after the loop and no other writer is modelled, so
      the per-row query answers from the ids read before the loop. */
  function LoopEnv(v: Version, ids: set<string>, lookup: string -> Artist): (env: Env)
  {
    Env(if v == V4 then ids else {}, ids, lookup)
  }

  /** The part of a run after the tables exist: the id query, the loop, the inserts. */
  function LoadBatches(v: Version, db: Db, tracks: seq<Track>, lookup: string -> Artist, date: Date): (r: RunResult)
  {
    match SelectIds(db, ArtistsTable)
    case Err(e) => Aborted(db, Sql(e))
    case Ok(ids) =>
      var p := Dedup.Run(LoopEnv(v, ids, lookup), RowShape(v), date, tracks);
      var done := ExecuteAll(db, Inserts(v, p));
      match done.error
      case Some(e) => Aborted(done.db, Sql(e))
      case None => Completed(done.db, p)
  }

  /** One run of the given script. */
  function RunScript(v: Version, db: Db, items: seq<Item>, lookup: string -> Artist, date: Date): (r: RunResult)
  {
    match v
    case V4 =>
      (match Flatten(items)
       case Err(NoArtist(k)) => Aborted(db, MissingArtist(k))
       case Ok(tracks) =>
         var created := ExecuteAll(db, Creates(V4));
         match created.error
         case Some(e) => Aborted(created.db, Sql(e))
         case None => LoadBatches(V4, created.db, tracks, lookup, date))
    case V3 =>
      var created := ExecuteAll(db, Creates(V3));
      match created.error
      case Some(e) => Aborted(created.db, Sql(e))
      case None =>
        match Flatten(items)
        case Err(NoArtist(k)) => Aborted(created.db, MissingArtist(k))
        case Ok(tracks) => LoadBatches(V3, created.db, tracks, lookup, date)
  }

  // ---------------------------------------------------------------- table creation

  /** The newer script's creation step never fails, keeps every existing table
      and its rows, and a second creation step changes nothing at all. */
  lemma V4CreationIdempotent(db: Db)
    ensures var o := ExecuteAll(db, Creates(V4));
      && o.error.None?
      && TracksTable in o.db && ArtistsTable in o.db
      && (forall t :: t in db ==> o.db[t] == db[t])
      && ExecuteAll(o.db, Creates(V4)) == Outcome(o.db, None)
  {
    var c := Creates(V4);
    assert c[1..] == [c[1]];
    var db1 := Execute(db, c[0]).value;
    var db2 := Execute(db1, c[1]).value;
    assert ExecuteAll(db, c) == ExecuteAll(db1, [c[1]]);
    assert ExecuteAll(db1, [c[1]]) == ExecuteAll(db2, []);
    assert Execute(db2, c[0]) == Ok(db2);
    assert Execute(db2, c[1]) == Ok(db2);
    assert ExecuteAll(db2, c) == ExecuteAll(db2, [c[1]]);
  }

  /** The older script's creation step fails on a warehouse that already has
      the tracks table, before it changes anything. */
  lemma V3CreationFailsWhenTracksExist(db: Db)
    requires TracksTable in db
    ensures ExecuteAll(db, Creates(V3)) == Outcome(db, Some(TableExists(TracksTable)))
  {
  }

  /** With a fresh tracks table but an existing artists table, the older
      script's creation step fails after committing the tracks table. */
  lemma V3CreationFailsWhenArtistsExist(db: Db)
    requires TracksTable !in db && ArtistsTable in db
    ensures var o := ExecuteAll(db, Creates(V3));
      o.error == Some(TableExists(ArtistsTable)) && o.db == db[TracksTable := Table(TrackColumns(Narrow), [])]
  {
    var c := Creates(V3);
    assert c[1..] == [c[1]];
  }

  // ---------------------------------------------------------------- unfolding a completed run

  /** A completed run flattened the playlist and created both tables, and the
      rest of it is `LoadBatches` on the created tables. */
  lemma CompletedRunUnfolds(v: Version, db: Db, items: seq<Item>, lookup: string -> Artist, date: Date)
    requires RunScript(v, db, items, lookup, date).Completed?
    ensures Flatten(items).Ok?
    ensures ExecuteAll(db, Creates(v)).error.None?
    ensures RunScript(v, db, items, lookup, date)
      == LoadBatches(v, ExecuteAll(db, Creates(v)).db, Flatten(items).value, lookup, date)
  {
  }

  /** What the two inserts leave behind when both are accepted. */
  lemma InsertsUnfold(v: Version, db: Db, p: Pass)
    ensures var ss := Inserts(v, p);
      var o := ExecuteAll(db, ss);
      o.error.None? <==>
        (Execute(db, ss[0]).Ok? && (|ss| == 2 ==> Execute(Execute(db, ss[0]).value, ss[1]).Ok?))
    ensures var ss := Inserts(v, p);
      var o := ExecuteAll(db, ss);
      o.error.None? ==>
        o.db == (if |ss| == 2 then Execute(Execute(db, ss[0]).value, ss[1]).value
                 else Execute(db, ss[0]).value)
  {
    var ss := Inserts(v, p);
    if |ss| == 2 {
      assert ss[1..] == [ss[1]];
      if Execute(db, ss[0]).Ok? {
        var db1 := Execute(db, ss[0]).value;
        assert ExecuteAll(db, ss) == ExecuteAll(db1, [ss[1]]);
      }
    } else {
      assert ss[1..] == [];
    }
  }

  /** A successful creation step leaves both tables in place, keeps every
      table that existed, and creates missing ones empty. */
  lemma CreatedTables(v: Version, db: Db)
    requires ExecuteAll(db, Creates(v)).error.None?
    ensures var c := ExecuteAll(db, Creates(v)).db;
      && c.Keys == db.Keys + {TracksTable, ArtistsTable}
      && (forall t :: t in db ==> c[t] == db[t])
      && (ArtistsTable !in db ==> c[ArtistsTable] == Table(ArtistColumns, []))
      && (TracksTable !in db ==> c[TracksTable] == Table(TrackColumns(RowShape(v)), []))
      && (v == V3 ==> TracksTable !in db && ArtistsTable !in db)
  {
    var cs := Creates(v);
    assert TracksTable != ArtistsTable;
    assert cs == [cs[0], cs[1]];
    TwoCreates(db, cs[0], cs[1]);
  }

  /** An artist row inserted under the artists column list is found under its
      own id, whatever order the target table keeps its columns in. */
  lemma InsertedArtistId(t: Table, a: ArtistRow)
    requires FirstUnknown(Names(ArtistColumns), Names(t.columns)).None?
    ensures IdAt(t, Align(Names(t.columns), Names(ArtistColumns), ArtistValues(a))) == Some(a.id)
  {
    var targets := Names(ArtistColumns);
    var names := Names(t.columns);
    assert targets[0] == IdCol;
    assert IdCol in names;
    var k := FirstIndex(names, IdCol);
    assert FirstIndex(targets, IdCol) == 0;
  }

  /** A completed `LoadBatches` read the stored ids and ran the loop and the
      inserts on them. */
  lemma LoadCompletedUnfolds(v: Version, db: Db, tracks: seq<Track>, lookup: string -> Artist, date: Date)
    requires LoadBatches(v, db, tracks, lookup, date).Completed?
    ensures SelectIds(db, ArtistsTable).Ok?
    ensures var p := Dedup.Run(LoopEnv(v, SelectIds(db, ArtistsTable).value, lookup), RowShape(v), date, tracks);
      var o := ExecuteAll(db, Inserts(v, p));
      o.error.None? && LoadBatches(v, db, tracks, lookup, date) == Completed(o.db, p)
  {
  }

  /** Inserting an artist batch of new, pairwise different ids keeps the
      artists table's ids unique. */
  lemma ArtistInsertKeepsKeyUnique(db: Db, batch: seq<ArtistRow>, ids: set<string>)
    requires ArtistsTable in db && KeyUnique(db[ArtistsTable])
    requires SelectIds(db, ArtistsTable) == Ok(ids)
    requires Distinct(BatchIds(batch))
    requires forall i :: 0 <= i < |batch| ==> batch[i].id !in ids
    requires Execute(db, InsertValues(ArtistsTable, Names(ArtistColumns), ArtistTuples(batch))).Ok?
    ensures KeyUnique(Execute(db, InsertValues(ArtistsTable, Names(ArtistColumns), ArtistTuples(batch))).value[ArtistsTable])
  {
    SelectIdsContents(db, ArtistsTable);
    var before := db[ArtistsTable];
    var after := Execute(db, InsertValues(ArtistsTable, Names(ArtistColumns), ArtistTuples(batch))).value[ArtistsTable];
    var keys := BatchIds(batch);
    forall i | 0 <= i < |keys|
      ensures IdAt(after, after.rows[|before.rows| + i]) == Some(keys[i])
    {
      InsertedArtistId(before, batch[i]);
    }
    AppendKeepsKeyUnique(before, after, keys);
  }

  /** Given the same stored ids, the two scripts' loops fetch and batch the
      same artists in the same order; they differ in the track rows and in
      the per-row queries the newer script's snapshot saves. */
  lemma VersionsAgreeOnArtists(ids: set<string>, lookup: string -> Artist, date: Date, date': Date, tracks: seq<Track>)
    ensures var p3 := Dedup.Run(LoopEnv(V3, ids, lookup), Narrow, date, tracks);
      var p4 := Dedup.Run(LoopEnv(V4, ids, lookup), Wide, date', tracks);
      p3.seen == p4.seen && p3.fetched == p4.fetched && p3.batch == p4.batch
  {
    ShapeOnlyAffectsRows(LoopEnv(V3, ids, lookup), date, date', tracks);
    OnlyKnownUnionMatters(LoopEnv(V4, ids, lookup), Wide, date', tracks);
    assert ids + ids == ids;
    assert LoopEnv(V3, ids, lookup) == Env({}, ids, lookup);
  }

  // ---------------------------------------------------------------- whole-run properties

  /** At most one artists-table row per artist id: a completed run of either
      script keeps the artists table's ids unique if they were unique before. */
  lemma ArtistIdsStayUnique(v: Version, db: Db, items: seq<Item>, lookup: string -> Artist, date: Date)
    requires Faithful(lookup)
    requires ArtistsTable in db ==> KeyUnique(db[ArtistsTable])
    requires RunScript(v, db, items, lookup, date).Completed?
    ensures var r := RunScript(v, db, items, lookup, date);
      ArtistsTable in r.db && KeyUnique(r.db[ArtistsTable])
  {
    CompletedRunUnfolds(v, db, items, lookup, date);
    CreatedTables(v, db);
    var created := ExecuteAll(db, Creates(v)).db;
    var tracks := Flatten(items).value;
    LoadCompletedUnfolds(v, created, tracks, lookup, date);
    var ids := SelectIds(created, ArtistsTable).value;
    var env := LoopEnv(v, ids, lookup);
    var p := Dedup.Run(env, RowShape(v), date, tracks);
    var ss := Inserts(v, p);
    InsertsUnfold(v, created, p);
    var db1 := Execute(created, ss[0]).value;
    assert db1[ArtistsTable] == created[ArtistsTable];
    if |ss| == 2 {
      KnownIdsNeverFetched(env, RowShape(v), date, tracks);
      RunSetIsBatch(env, RowShape(v), date, tracks);
      ArtistInsertKeepsKeyUnique(db1, p.batch, ids);
    }
  }

  /** Every artist of an accepted artist insert is afterwards found by the id query. */
  lemma InsertedArtistsStored(db: Db, batch: seq<ArtistRow>)
    requires |batch| > 0
    requires Execute(db, InsertValues(ArtistsTable, Names(ArtistColumns), ArtistTuples(batch))).Ok?
    ensures var db' := Execute(db, InsertValues(ArtistsTable, Names(ArtistColumns), ArtistTuples(batch))).value;
      && SelectIds(db', ArtistsTable).Ok?
      && forall i :: 0 <= i < |batch| ==> batch[i].id in SelectIds(db', ArtistsTable).value
  {
    var db' := Execute(db, InsertValues(ArtistsTable, Names(ArtistColumns), ArtistTuples(batch))).value;
    var before := db[ArtistsTable];
    var after := db'[ArtistsTable];
    assert Names(ArtistColumns)[0] == IdCol;
    SelectIdsContents(db', ArtistsTable);
    forall i | 0 <= i < |batch|
      ensures batch[i].id in SelectIds(db', ArtistsTable).value
    {
      InsertedArtistId(before, batch[i]);
      assert after.rows[|before.rows| + i] in after.rows;
    }
  }

  /** After the loading part of a run the id query still finds every id it
      found before, and also every id of the artist batch. */
  lemma LoadKeepsAndAddsIds(v: Version, db: Db, tracks: seq<Track>, lookup: string -> Artist, date: Date)
    requires LoadBatches(v, db, tracks, lookup, date).Completed?
    ensures var r := LoadBatches(v, db, tracks, lookup, date);
      && SelectIds(db, ArtistsTable).Ok? && SelectIds(r.db, ArtistsTable).Ok?
      && SelectIds(db, ArtistsTable).value <= SelectIds(r.db, ArtistsTable).value
      && forall i :: 0 <= i < |r.pass.batch| ==> r.pass.batch[i].id in SelectIds(r.db, ArtistsTable).value
  {
    LoadCompletedUnfolds(v, db, tracks, lookup, date);
    var r := LoadBatches(v, db, tracks, lookup, date);
    var p := r.pass;
    var ss := Inserts(v, p);
    InsertsUnfold(v, db, p);
    var db1 := Execute(db, ss[0]).value;
    assert db1[ArtistsTable] == db[ArtistsTable];
    SelectIdsGrow(db, r.db, ArtistsTable);
    if |ss| == 2 {
      InsertedArtistsStored(db1, p.batch);
    }
  }

  /** After the loading part of a run every track's artist is stored. */
  lemma LoadStoresEveryArtist(v: Version, db: Db, tracks: seq<Track>, lookup: string -> Artist, date: Date)
    requires Faithful(lookup)
    requires LoadBatches(v, db, tracks, lookup, date).Completed?
    ensures var r := LoadBatches(v, db, tracks, lookup, date);
      && SelectIds(r.db, ArtistsTable).Ok?
      && forall i :: 0 <= i < |tracks| ==> tracks[i].artistId in SelectIds(r.db, ArtistsTable).value
  {
    LoadCompletedUnfolds(v, db, tracks, lookup, date);
    LoadKeepsAndAddsIds(v, db, tracks, lookup, date);
    var r := LoadBatches(v, db, tracks, lookup, date);
    var env := LoopEnv(v, SelectIds(db, ArtistsTable).value, lookup);
    assert r.pass == Dedup.Run(env, RowShape(v), date, tracks);
    EveryArtistAccountedFor(env, RowShape(v), date, tracks);
    forall i | 0 <= i < |tracks|
      ensures tracks[i].artistId in SelectIds(r.db, ArtistsTable).value
    {
      var id := tracks[i].artistId;
      if id !in env.snapshot && id !in env.persisted {
        var k :| 0 <= k < |r.pass.batch| && BatchIds(r.pass.batch)[k] == id;
      }
    }
  }

  /** After a completed run every playlist item's first artist is stored in
      the artists table: it was there already or was inserted by this run. */
  lemma EveryArtistStored(v: Version, db: Db, items: seq<Item>, lookup: string -> Artist, date: Date)
    requires Faithful(lookup)
    requires RunScript(v, db, items, lookup, date).Completed?
    ensures var r := RunScript(v, db, items, lookup, date);
      && SelectIds(r.db, ArtistsTable).Ok?
      && forall i :: 0 <= i < |items| ==>
           |items[i].artists| > 0 && items[i].artists[0].id in SelectIds(r.db, ArtistsTable).value
  {
    CompletedRunUnfolds(v, db, items, lookup, date);
    var tracks := Flatten(items).value;
    LoadStoresEveryArtist(v, ExecuteAll(db, Creates(v)).db, tracks, lookup, date);
    forall i | 0 <= i < |items|
      ensures tracks[i].artistId == items[i].artists[0].id
    {
    }
  }

  /** No table layout names a column twice. */
  lemma ColumnNamesDistinct()
    ensures Distinct(Names(TrackColumns(Wide)))
    ensures Distinct(Names(TrackColumns(Narrow)))
    ensures Distinct(Names(ArtistColumns))
  {
    assert Names(TrackColumns(Wide))
      == [IdCol, NameCol, ArtistCol, ArtistIdCol, AlbumCol, PopularityCol, DurationMsCol, DateCol];
    assert Names(TrackColumns(Narrow)) == [IdCol, NameCol, ArtistCol, AlbumCol, PopularityCol, DurationMsCol];
    assert Names(ArtistColumns) == [IdCol, NameCol, FollowersCol, GenresCol, PopularityCol];
  }

  /** The tuples of rows of one layout all have that layout's arity. */
  lemma TrackTuplesArity(shape: Shape, rows: seq<TrackRow>)
    requires forall i :: 0 <= i < |rows| ==> ShapeOf(rows[i]) == shape
    ensures forall i :: 0 <= i < |rows| ==> |TrackTuples(rows)[i]| == |Names(TrackColumns(shape))|
  {
  }

  /** The newer script's creation step changes nothing once both tables exist. */
  lemma V4CreationNoOp(db: Db)
    requires TracksTable in db && ArtistsTable in db
    ensures ExecuteAll(db, Creates(V4)) == Outcome(db, None)
  {
    var c := Creates(V4);
    assert c[1..] == [c[1]];
    assert ExecuteAll(db, c) == ExecuteAll(db, [c[1]]);
  }

  /** A load of the newer script in which every track's artist is already
      stored fetches no artist, issues no artist insert, and completes when the
      tracks table takes the eight-column insert. */
  lemma LoadWithAllArtistsStored(db: Db, tracks: seq<Track>, lookup: string -> Artist, date: Date)
    requires SelectIds(db, ArtistsTable).Ok?
    requires forall i :: 0 <= i < |tracks| ==> tracks[i].artistId in SelectIds(db, ArtistsTable).value
    requires TracksTable in db
    requires |tracks| > 0 ==> FirstUnknown(Names(TrackColumns(Wide)), Names(db[TracksTable].columns)).None?
    ensures var r := LoadBatches(V4, db, tracks, lookup, date);
      && r.Completed?
      && r.pass.fetched == [] && r.pass.batch == []
      && ArtistsTable in r.db && r.db[ArtistsTable] == db[ArtistsTable]
  {
    var ids := SelectIds(db, ArtistsTable).value;
    var env := LoopEnv(V4, ids, lookup);
    var q := Dedup.Run(env, Wide, date, tracks);
    NothingNewNothingFetched(env, Wide, date, tracks);
    RowsFollowPlaylist(env, Wide, date, tracks);
    TrackTuplesArity(Wide, q.rows);
    var ss := Inserts(V4, q);
    var targets := Names(TrackColumns(Wide));
    assert ss == [InsertValues(TracksTable, targets, TrackTuples(q.rows))];
    if |tracks| > 0 {
      ColumnNamesDistinct();
      assert InsertAccepted(db, TracksTable, targets, TrackTuples(q.rows));
    }
    var db' := Execute(db, ss[0]).value;
    assert ExecuteAll(db, ss) == Outcome(db', None) by {
      assert ss[1..] == [];
    }
    assert LoadBatches(V4, db, tracks, lookup, date) == Completed(db', q);
  }

  /** A completed load had its track insert accepted, and keeps the tables
      and the tracks table's columns. */
  lemma LoadTookTrackInsert(v: Version, db: Db, tracks: seq<Track>, lookup: string -> Artist, date: Date)
    requires TracksTable in db && ArtistsTable in db
    requires LoadBatches(v, db, tracks, lookup, date).Completed?
    ensures var r := LoadBatches(v, db, tracks, lookup, date);
      && TracksTable in r.db && ArtistsTable in r.db
      && r.db[TracksTable].columns == db[TracksTable].columns
      && (|tracks| > 0 ==> FirstUnknown(Names(TrackColumns(RowShape(v))), Names(db[TracksTable].columns)).None?)
  {
    LoadCompletedUnfolds(v, db, tracks, lookup, date);
    var p := LoadBatches(v, db, tracks, lookup, date).pass;
    RowsFollowPlaylist(LoopEnv(v, SelectIds(db, ArtistsTable).value, lookup), RowShape(v), date, tracks);
    var ss := Inserts(v, p);
    InsertsUnfold(v, db, p);
    var db2 := Execute(db, ss[0]).value;
    assert db2[TracksTable].columns == db[TracksTable].columns;
  }

  /** After a completed run both tables exist, and the tracks table still
      has every column the script's track insert names. */
  lemma CompletedRunTakesTrackInsert(v: Version, db: Db, items: seq<Item>, lookup: string -> Artist, date: Date)
    requires RunScript(v, db, items, lookup, date).Completed?
    ensures var r := RunScript(v, db, items, lookup, date);
      && TracksTable in r.db && ArtistsTable in r.db
      && (|items| > 0 ==> FirstUnknown(Names(TrackColumns(RowShape(v))), Names(r.db[TracksTable].columns)).None?)
  {
    CompletedRunUnfolds(v, db, items, lookup, date);
    CreatedTables(v, db);
    LoadTookTrackInsert(v, ExecuteAll(db, Creates(v)).db, Flatten(items).value, lookup, date);
  }

  /** A run of the newer script on a warehouse that already stores every
      playlist artist completes, fetches nothing and leaves the artists table
      as it was. */
  lemma V4RunWithAllArtistsStored(db: Db, items: seq<Item>, lookup: string -> Artist, date: Date)
    requires TracksTable in db && ArtistsTable in db
    requires |items| > 0 ==> FirstUnknown(Names(TrackColumns(Wide)), Names(db[TracksTable].columns)).None?
    requires SelectIds(db, ArtistsTable).Ok?
    requires forall i :: 0 <= i < |items| ==>
      |items[i].artists| > 0 && items[i].artists[0].id in SelectIds(db, ArtistsTable).value
    ensures var r := RunScript(V4, db, items, lookup, date);
      && r.Completed?
      && r.pass.fetched == [] && r.pass.batch == []
      && ArtistsTable in r.db && r.db[ArtistsTable] == db[ArtistsTable]
  {
    V4CreationNoOp(db);
    var tracks := Flatten(items).value;
    forall i | 0 <= i < |tracks|
      ensures tracks[i].artistId == items[i].artists[0].id
    {
    }
    assert RunScript(V4, db, items, lookup, date) == LoadBatches(V4, db, tracks, lookup, date);
    LoadWithAllArtistsStored(db, tracks, lookup, date);
  }

  /** Re-running the newer script on the same playlist right after a completed
      run completes again, fetches no artist, and leaves the artists table as
      it was. */
  lemma {:induction false} V4RerunAddsNoArtists(db: Db, items: seq<Item>, lookup: string -> Artist, date: Date, date': Date)
    requires Faithful(lookup)
    requires RunScript(V4, db, items, lookup, date).Completed?
    ensures var db1 := RunScript(V4, db, items, lookup, date).db;
      var r := RunScript(V4, db1, items, lookup, date');
      && r.Completed?
      && r.pass.fetched == [] && r.pass.batch == []
      && ArtistsTable in db1 && ArtistsTable in r.db
      && r.db[ArtistsTable] == db1[ArtistsTable]
  {
    var db1 := RunScript(V4, db, items, lookup, date).db;
    assert TracksTable in db1 && ArtistsTable in db1
      && (|items| > 0 ==> FirstUnknown(Names(TrackColumns(Wide)), Names(db1[TracksTable].columns)).None?) by {
      CompletedRunTakesTrackInsert(V4, db, items, lookup, date);
    }
    assert SelectIds(db1, ArtistsTable).Ok? && forall i :: 0 <= i < |items| ==>
      |items[i].artists| > 0 && items[i].artists[0].id in SelectIds(db1, ArtistsTable).value by {
      EveryArtistStored(V4, db, items, lookup, date);
    }
    V4RunWithAllArtistsStored(db1, items, lookup, date');
  }

  /** The older script cannot complete twice on one warehouse: after a
      completed run, the next run stops at creating the tracks table and
      changes nothing. */
  lemma V3RerunFails(db: Db, items: seq<Item>, lookup: string -> Artist, date: Date,
                     items': seq<Item>, lookup': string -> Artist, date': Date)
    requires RunScript(V3, db, items, lookup, date).Completed?
    ensures var db1 := RunScript(V3, db, items, lookup, date).db;
      RunScript(V3, db1, items', lookup', date') == Aborted(db1, Sql(TableExists(TracksTable)))
  {
    CompletedRunUnfolds(V3, db, items, lookup, date);
    CreatedTables(V3, db);
    var created := ExecuteAll(db, Creates(V3)).db;
    var tracks := Flatten(items).value;
    LoadCompletedUnfolds(V3, created, tracks, lookup, date);
    var db1 := RunScript(V3, db, items, lookup, date).db;
    assert TracksTable in db1;
    V3CreationFailsWhenTracksExist(db1);
  }

  /** A completed run of the older script started from a warehouse without
      either table, so, with no other session writing the artists table,
      nothing was stored before and every distinct artist of the playlist
      was fetched. */
  lemma V3FetchesEveryArtist(db: Db, items: seq<Item>, lookup: string -> Artist, date: Date)
    requires RunScript(V3, db, items, lookup, date).Completed?
    ensures TracksTable !in db && ArtistsTable !in db
    ensures Flatten(items).Ok?
    ensures var p := RunScript(V3, db, items, lookup, date).pass;
      forall x :: x in p.fetched <==> x in ArtistIds(Flatten(items).value)
  {
    CompletedRunUnfolds(V3, db, items, lookup, date);
    CreatedTables(V3, db);
    var created := ExecuteAll(db, Creates(V3)).db;
    var tracks := Flatten(items).value;
    LoadCompletedUnfolds(V3, created, tracks, lookup, date);
    assert SelectIds(created, ArtistsTable).value == {};
    RunInvariant(LoopEnv(V3, {}, lookup), Narrow, date, tracks);
  }

  /** In the newer script the per-row query never finds a row when no other
      session writes the artists table during the run: the snapshot was read
      from the same table, so every id it is asked about is fetched. */
  lemma V4PerRowQueryNeverFinds(db: Db, items: seq<Item>, lookup: string -> Artist, date: Date)
    requires RunScript(V4, db, items, lookup, date).Completed?
    ensures var p := RunScript(V4, db, items, lookup, date).pass;
      p.queried == p.fetched
  {
    CompletedRunUnfolds(V4, db, items, lookup, date);
    var created := ExecuteAll(db, Creates(V4)).db;
    var tracks := Flatten(items).value;
    LoadCompletedUnfolds(V4, created, tracks, lookup, date);
    QueriesOnlyForNewIds(LoopEnv(V4, SelectIds(created, ArtistsTable).value, lookup), Wide, date, tracks);
  }

  /** A playlist item without an artist stops the newer script before it
      touches the warehouse, and the older one after it created the tables
      but before any insert. */
  lemma MissingArtistAborts(v: Version, db: Db, items: seq<Item>, lookup: string -> Artist, date: Date, k: nat)
    requires k < |items| && |items[k].artists| == 0
    ensures var r := RunScript(v, db, items, lookup, date);
      && r.Aborted?
      && (v == V4 ==> r.db == db && r.error.MissingArtist?)
      && (v == V3 ==> r.db == ExecuteAll(db, Creates(V3)).db)
  {
  }

  /** What the loading part of a run leaves behind. */
  lemma LoadEffects(v: Version, db: Db, tracks: seq<Track>, lookup: string -> Artist, date: Date)
    requires TracksTable in db && ArtistsTable in db
    requires LoadBatches(v, db, tracks, lookup, date).Completed?
    ensures var r := LoadBatches(v, db, tracks, lookup, date);
      && r.db.Keys == db.Keys
      && (forall t :: t in db && t != TracksTable && t != ArtistsTable ==> r.db[t] == db[t])
      && db[TracksTable].rows <= r.db[TracksTable].rows
      && |r.db[TracksTable].rows| == |db[TracksTable].rows| + |tracks|
      && db[ArtistsTable].rows <= r.db[ArtistsTable].rows
      && |r.db[ArtistsTable].rows| == |db[ArtistsTable].rows| + |r.pass.batch|
      && (r.pass.batch == [] ==> r.db[ArtistsTable] == db[ArtistsTable])
  {
    LoadCompletedUnfolds(v, db, tracks, lookup, date);
    var env := LoopEnv(v, SelectIds(db, ArtistsTable).value, lookup);
    var p := Dedup.Run(env, RowShape(v), date, tracks);
    RowsFollowPlaylist(env, RowShape(v), date, tracks);
    InsertsUnfold(v, db, p);
    var ss := Inserts(v, p);
    var db1 := Execute(db, ss[0]).value;
    assert db1[ArtistsTable] == db[ArtistsTable];
  }

  /** The rows the two accepted inserts append: the pass's track rows to the
      tracks table and its artist batch to the artists table, each aligned to
      the table's own columns. */
  lemma InsertsAppend(v: Version, db: Db, p: Pass)
    requires TracksTable in db && ArtistsTable in db
    requires ExecuteAll(db, Inserts(v, p)).error.None?
    ensures var o := ExecuteAll(db, Inserts(v, p)).db;
      && TracksTable in o && ArtistsTable in o
      && o[TracksTable].columns == db[TracksTable].columns
      && o[ArtistsTable].columns == db[ArtistsTable].columns
      && |o[TracksTable].rows| == |db[TracksTable].rows| + |p.rows|
      && |o[ArtistsTable].rows| == |db[ArtistsTable].rows| + |p.batch|
      && (forall i :: 0 <= i < |p.rows| ==>
            o[TracksTable].rows[|db[TracksTable].rows| + i]
            == Align(Names(db[TracksTable].columns), Names(TrackColumns(RowShape(v))), TrackValues(p.rows[i])))
      && (forall i :: 0 <= i < |p.batch| ==>
            o[ArtistsTable].rows[|db[ArtistsTable].rows| + i]
            == Align(Names(db[ArtistsTable].columns), Names(ArtistColumns), ArtistValues(p.batch[i])))
  {
    InsertsUnfold(v, db, p);
    var ss := Inserts(v, p);
    var db1 := Execute(db, ss[0]).value;
    assert db1[ArtistsTable] == db[ArtistsTable];
    TrackInsertAppends(v, db, p.rows);
    if |ss| == 2 {
      var db2 := Execute(db1, ss[1]).value;
      assert db2[TracksTable] == db1[TracksTable];
      ArtistInsertAppends(db1, p.batch);
    }
  }

  /** An accepted track insert appends the given rows, in order. */
  lemma TrackInsertAppends(v: Version, db: Db, rows: seq<TrackRow>)
    requires TracksTable in db
    requires Execute(db, InsertValues(TracksTable, Names(TrackColumns(RowShape(v))), TrackTuples(rows))).Ok?
    ensures var db' := Execute(db, InsertValues(TracksTable, Names(TrackColumns(RowShape(v))), TrackTuples(rows))).value;
      && TracksTable in db'
      && |db'[TracksTable].rows| == |db[TracksTable].rows| + |rows|
      && forall i :: 0 <= i < |rows| ==>
           db'[TracksTable].rows[|db[TracksTable].rows| + i]
           == Align(Names(db[TracksTable].columns), Names(TrackColumns(RowShape(v))), TrackValues(rows[i]))
  {
    var s := InsertValues(TracksTable, Names(TrackColumns(RowShape(v))), TrackTuples(rows));
    var db' := Execute(db, s).value;
    forall i | 0 <= i < |rows|
      ensures db'[TracksTable].rows[|db[TracksTable].rows| + i]
              == Align(Names(db[TracksTable].columns), s.targets, TrackValues(rows[i]))
    {
      assert s.rows[i] == TrackValues(rows[i]);
    }
  }

  /** An accepted artist insert appends the batch's rows, in order. */
  lemma ArtistInsertAppends(db: Db, batch: seq<ArtistRow>)
    requires ArtistsTable in db
    requires Execute(db, InsertValues(ArtistsTable, Names(ArtistColumns), ArtistTuples(batch))).Ok?
    ensures var db' := Execute(db, InsertValues(ArtistsTable, Names(ArtistColumns), ArtistTuples(batch))).value;
      && ArtistsTable in db'
      && |db'[ArtistsTable].rows| == |db[ArtistsTable].rows| + |batch|
      && forall i :: 0 <= i < |batch| ==>
           db'[ArtistsTable].rows[|db[ArtistsTable].rows| + i]
           == Align(Names(db[ArtistsTable].columns), Names(ArtistColumns), ArtistValues(batch[i]))
  {
    var s := InsertValues(ArtistsTable, Names(ArtistColumns), ArtistTuples(batch));
    var db' := Execute(db, s).value;
    forall i | 0 <= i < |batch|
      ensures db'[ArtistsTable].rows[|db[ArtistsTable].rows| + i]
              == Align(Names(db[ArtistsTable].columns), s.targets, ArtistValues(batch[i]))
    {
      assert s.rows[i] == ArtistValues(batch[i]);
    }
  }

  /** The rows a completed load appends: one track row per playlist track,
      in playlist order, and the artist batch, in batch order; rows already
      stored are kept. */
  lemma LoadAppends(v: Version, db: Db, tracks: seq<Track>, lookup: string -> Artist, date: Date)
    requires TracksTable in db && ArtistsTable in db
    requires LoadBatches(v, db, tracks, lookup, date).Completed?
    ensures var r := LoadBatches(v, db, tracks, lookup, date);
      && TracksTable in r.db && ArtistsTable in r.db
      && AppendedTracks(db[TracksTable], r.db[TracksTable], v, tracks, date)
      && AppendedArtists(db[ArtistsTable], r.db[ArtistsTable], r.pass.batch)
  {
    LoadCompletedUnfolds(v, db, tracks, lookup, date);
    LoadEffects(v, db, tracks, lookup, date);
    var env := LoopEnv(v, SelectIds(db, ArtistsTable).value, lookup);
    var p := Dedup.Run(env, RowShape(v), date, tracks);
    RowsFollowPlaylist(env, RowShape(v), date, tracks);
    InsertsAppend(v, db, p);
  }

  /** What a completed run leaves behind: tables other than the two are
      untouched; the tracks table is the table the creation step left with
      one row per playlist item appended, in playlist order; the artists table
      is that table with the artist batch appended, in batch order, and stays
      as it was when the batch is empty. */
  lemma CompletedRunEffects(v: Version, db: Db, items: seq<Item>, lookup: string -> Artist, date: Date)
    requires RunScript(v, db, items, lookup, date).Completed?
    ensures var r := RunScript(v, db, items, lookup, date);
      var c := ExecuteAll(db, Creates(v)).db;
      && r.db.Keys == db.Keys + {TracksTable, ArtistsTable}
      && (forall t :: t in db && t != TracksTable && t != ArtistsTable ==> r.db[t] == db[t])
      && Flatten(items).Ok? && |Flatten(items).value| == |items|
      && AppendedTracks(c[TracksTable], r.db[TracksTable], v, Flatten(items).value, date)
      && AppendedArtists(c[ArtistsTable], r.db[ArtistsTable], r.pass.batch)
      && (r.pass.batch == [] ==> r.db[ArtistsTable] == c[ArtistsTable])
  {
    CompletedRunUnfolds(v, db, items, lookup, date);
    CreatedTables(v, db);
    var c := ExecuteAll(db, Creates(v)).db;
    var tracks := Flatten(items).value;
    assert RunScript(v, db, items, lookup, date) == LoadBatches(v, c, tracks, lookup, date);
    LoadEffects(v, c, tracks, lookup, date);
    LoadAppends(v, c, tracks, lookup, date);
  }

  // ---------------------------------------------------------------- the happy path

  /** The track insert is accepted by a tracks table of the matching layout. */
  lemma TrackInsertAccepted(db: Db, shape: Shape, rows: seq<TrackRow>)
    requires TracksTable in db && db[TracksTable].columns == TrackColumns(shape)
    requires forall i :: 0 <= i < |rows| ==> ShapeOf(rows[i]) == shape
    ensures InsertAccepted(db, TracksTable, Names(TrackColumns(shape)), TrackTuples(rows))
  {
    TrackTuplesArity(shape, rows);
    ColumnNamesDistinct();
  }

  /** The artist insert is accepted by an artists table of the script's layout. */
  lemma ArtistInsertAccepted(db: Db, batch: seq<ArtistRow>)
    requires ArtistsTable in db && db[ArtistsTable].columns == ArtistColumns
    ensures InsertAccepted(db, ArtistsTable, Names(ArtistColumns), ArtistTuples(batch))
  {
    ColumnNamesDistinct();
  }

  /** Loading into tables laid out as the script creates them always
      completes: the id query finds its column, and both inserts name
      existing, distinct columns with tuples of the right width. */
  lemma LoadCompletesOnOwnLayout(v: Version, db: Db, tracks: seq<Track>, lookup: string -> Artist, date: Date)
    requires TracksTable in db && db[TracksTable].columns == TrackColumns(RowShape(v))
    requires ArtistsTable in db && db[ArtistsTable].columns == ArtistColumns
    ensures LoadBatches(v, db, tracks, lookup, date).Completed?
  {
    assert Names(ArtistColumns)[0] == IdCol;
    var env := LoopEnv(v, SelectIds(db, ArtistsTable).value, lookup);
    var p := Dedup.Run(env, RowShape(v), date, tracks);
    RowsFollowPlaylist(env, RowShape(v), date, tracks);
    InsertsUnfold(v, db, p);
    var ss := Inserts(v, p);
    TrackInsertAccepted(db, RowShape(v), p.rows);
    var db1 := Execute(db, ss[0]).value;
    if |ss| == 2 {
      ArtistInsertAccepted(db1, p.batch);
    }
  }

  /** On a warehouse that has neither table yet, the creation step of either
      script succeeds and lays both tables out as the script defines them. */
  lemma CreatesOnFreshWarehouse(v: Version, db: Db)
    requires TracksTable !in db && ArtistsTable !in db
    ensures var o := ExecuteAll(db, Creates(v));
      && o.error.None?
      && TracksTable in o.db && o.db[TracksTable].columns == TrackColumns(RowShape(v))
      && ArtistsTable in o.db && o.db[ArtistsTable].columns == ArtistColumns
  {
    var c := Creates(v);
    assert c[1..] == [c[1]];
    var db1 := Execute(db, c[0]).value;
    var db2 := Execute(db1, c[1]).value;
    assert ExecuteAll(db, c) == ExecuteAll(db1, [c[1]]);
    assert ExecuteAll(db1, [c[1]]) == ExecuteAll(db2, []);
  }

  /** On a warehouse that has neither table yet, either script completes
      exactly when every playlist item credits an artist. */
  lemma RunCompletesOnFreshWarehouse(v: Version, db: Db, items: seq<Item>, lookup: string -> Artist, date: Date)
    requires TracksTable !in db && ArtistsTable !in db
    ensures RunScript(v, db, items, lookup, date).Completed?
      <==> forall i :: 0 <= i < |items| ==> |items[i].artists| > 0
  {
    CreatesOnFreshWarehouse(v, db);
    if Flatten(items).Ok? {
      LoadCompletesOnOwnLayout(v, ExecuteAll(db, Creates(v)).db, Flatten(items).value, lookup, date);
    }
  }
}

=== FILE: records.dfy ===
/**
 The records both scripts handle: the playlist item the API returns, the flat
 track record built from it, the artist the API returns, and the two row
 shapes written to the warehouse together with the column lists of the
 tables that receive them.
 */
module Records {
  import opened Results
  import Genres

  /** A calendar date, the value `date.today()` contributes to a row. */
  datatype Date = Date(year: int, month: int, day: int)

  /** One credited artist of a playlist item. */
  datatype ArtistRef = ArtistRef(id: string, name: string)

  /** A playlist item's `track` object, reduced to the fields the scripts read. */
  datatype Item = Item(
    id: string, name: string, artists: seq<ArtistRef>, album: string,
    popularity: int, durationMs: int)

  /** The flat per-track record: only the first credited artist is kept. */
  datatype Track = Track(
    id: string, name: string, artist: string, artistId: string, album: string,
    popularity: int, durationMs: int)

  /** An artist as the artist endpoint returns it. */
  datatype Artist = Artist(
    id: string, name: string, followers: int, genres: seq<string>, popularity: int)

  /** A row of the artists table: the genre list is flattened to one string. */
  datatype ArtistRow = ArtistRow(
    id: string, name: string, followers: int, genres: string, popularity: int)

  /** The two track-row layouts: six columns in the older script, eight in the newer. */
  datatype Shape = Narrow | Wide

  datatype TrackRow =
    | NarrowRow(id: string, name: string, artist: string, album: string,
                popularity: int, durationMs: int)
    | WideRow(id: string, name: string, artist: string, artistId: string, album: string,
              popularity: int, durationMs: int, date: Date)

  /** A value stored in a table cell. */
  datatype Value = VStr(str: string) | VInt(num: int) | VDate(date: Date) | VNull

  datatype SqlType = Varchar(width: nat) | Integer | DateType

  /** The column identifiers the two scripts' DDL uses; `SqlName` gives each
      one's spelling in the SQL text. */
  datatype ColumnName =
    | IdCol | NameCol | ArtistCol | ArtistIdCol | AlbumCol | PopularityCol
    | DurationMsCol | DateCol | FollowersCol | GenresCol

  function SqlName(c: ColumnName): (s: string)
  {
    match c
    case IdCol => "id"
    case NameCol => "name"
    case ArtistCol => "artist"
    case ArtistIdCol => "artist_id"
    case AlbumCol => "album"
    case PopularityCol => "popularity"
    case DurationMsCol => "duration_ms"
    case DateCol => "date"
    case FollowersCol => "followers"
    case GenresCol => "genres"
  }

  datatype Column = Column(name: ColumnName, ty: SqlType, primaryKey: bool)

  /** The item at `index` has no credited artist, so `artists[0]` raises. */
  datatype FlattenError = NoArtist(index: nat)

  // ---------------------------------------------------------------- flattening

  /** The per-item record built before the loop (or inside it, in the older script). */
  function FlattenItem(item: Item): (t: Track)
    requires |item.artists| > 0
  {
    Track(item.id, item.name, item.artists[0].name, item.artists[0].id, item.album,
          item.popularity, item.durationMs)
  }

  /** Flattening the whole playlist, stopping at the first item without an artist. */
  function Flatten(items: seq<Item>): (r: Result<seq<Track>, FlattenError>)
    ensures r.Ok? <==> forall i :: 0 <= i < |items| ==> |items[i].artists| > 0
    ensures r.Ok? ==> |r.value| == |items|
    ensures r.Ok? ==> forall i :: 0 <= i < |items| ==>
      |items[i].artists| > 0 && r.value[i] == FlattenItem(items[i])
    ensures r.Err? ==> r.error.index < |items| && |items[r.error.index].artists| == 0
    ensures r.Err? ==> forall i :: 0 <= i < r.error.index ==> |items[i].artists| > 0
  {
    if |items| == 0 then Ok([])
    else if |items[0].artists| == 0 then Err(NoArtist(0))
    else match Flatten(items[1..])
      case Ok(rest) => Ok([FlattenItem(items[0])] + rest)
      case Err(NoArtist(k)) => Err(NoArtist(k + 1))
  }

  // ---------------------------------------------------------------- row building

  function ShapeOf(row: TrackRow): (shape: Shape)
  {
    if row.NarrowRow? then Narrow else Wide
  }

  /** The row appended to the track batch for one track: every field of the
      track, except that the six-column layout drops the artist id, and the
      eight-column layout adds the run date. */
  function ToTrackRow(shape: Shape, t: Track, date: Date): (row: TrackRow)
    ensures ShapeOf(row) == shape
    ensures && row.id == t.id && row.name == t.name && row.artist == t.artist
            && row.album == t.album && row.popularity == t.popularity && row.durationMs == t.durationMs
    ensures row.WideRow? ==> row.artistId == t.artistId && row.date == date
  {
    match shape
    case Narrow => NarrowRow(t.id, t.name, t.artist, t.album, t.popularity, t.durationMs)
    case Wide => WideRow(t.id, t.name, t.artist, t.artistId, t.album, t.popularity, t.durationMs, date)
  }

  /** The row appended to the artist batch for one fetched artist: its id,
      name, follower count and popularity, and the genre list joined with
      commas, one between each two genres. */
  function ToArtistRow(a: Artist): (row: ArtistRow)
    ensures row.id == a.id && row.name == a.name && row.followers == a.followers
            && row.popularity == a.popularity
    ensures |a.genres| > 0 ==> a.genres[0] <= row.genres
    ensures (forall i :: 0 <= i < |a.genres| ==> Genres.Sep !in a.genres[i]) ==>
      Genres.Occurrences(row.genres, Genres.Sep) == if |a.genres| == 0 then 0 else |a.genres| - 1
  {
    ArtistRow(a.id, a.name, a.followers, Genres.Join(a.genres), a.popularity)
  }

  // ---------------------------------------------------------------- table layouts

  /** Column list of the tracks table each script creates. */
  function TrackColumns(shape: Shape): (cols: seq<Column>)
  {
    match shape
    case Narrow => [
      Column(IdCol, Varchar(255), true), Column(NameCol, Varchar(255), false),
      Column(ArtistCol, Varchar(255), false), Column(AlbumCol, Varchar(255), false),
      Column(PopularityCol, Integer, false), Column(DurationMsCol, Integer, false)]
    case Wide => [
      Column(IdCol, Varchar(255), true), Column(NameCol, Varchar(255), false),
      Column(ArtistCol, Varchar(255), false), Column(ArtistIdCol, Varchar(255), false),
      Column(AlbumCol, Varchar(255), false), Column(PopularityCol, Integer, false),
      Column(DurationMsCol, Integer, false), Column(DateCol, DateType, false)]
  }

  /** Column list of the artists table (identical in both scripts). */
  const ArtistColumns: seq<Column> := [
    Column(IdCol, Varchar(255), true), Column(NameCol, Varchar(255), false),
    Column(FollowersCol, Integer, false), Column(GenresCol, Varchar(255), false),
    Column(PopularityCol, Integer, false)]

  /** The kind of a value agrees with a column type; widths and ranges are not checked. */
  predicate HasType(v: Value, ty: SqlType)
  {
    match ty
    case Varchar(_) => v.VStr?
    case Integer => v.VInt?
    case DateType => v.VDate?
  }

  /** A value list fits a column list: same arity, matching kinds position by position. */
  predicate Fits(vs: seq<Value>, cols: seq<Column>)
  {
    |vs| == |cols| && forall k :: 0 <= k < |vs| ==> HasType(vs[k], cols[k].ty)
  }

  /** A track row as the tuple handed to the multi-row insert. */
  function TrackValues(row: TrackRow): (vs: seq<Value>)
    ensures Fits(vs, TrackColumns(ShapeOf(row)))
  {
    match row
    case NarrowRow(id, name, artist, album, pop, dur) =>
      [VStr(id), VStr(name), VStr(artist), VStr(album), VInt(pop), VInt(dur)]
    case WideRow(id, name, artist, artistId, album, pop, dur, date) =>
      [VStr(id), VStr(name), VStr(artist), VStr(artistId), VStr(album), VInt(pop), VInt(dur), VDate(date)]
  }

  /** An artist row as the tuple handed to the multi-row insert. */
  function ArtistValues(row: ArtistRow): (vs: seq<Value>)
    ensures Fits(vs, ArtistColumns)
    ensures vs[0] == VStr(row.id)
  {
    [VStr(row.id), VStr(row.name), VInt(row.followers), VStr(row.genres), VInt(row.popularity)]
  }

  /** Reading a stored track tuple back as a row of the given layout. */
  function ParseTrackValues(shape: Shape, vs: seq<Value>): (r: Option<TrackRow>)
  {
    match shape
    case Narrow =>
      if |vs| == 6 && vs[0].VStr? && vs[1].VStr? && vs[2].VStr? && vs[3].VStr?
         && vs[4].VInt? && vs[5].VInt?
      then Some(NarrowRow(vs[0].str, vs[1].str, vs[2].str, vs[3].str, vs[4].num, vs[5].num))
      else None
    case Wide =>
      if |vs| == 8 && vs[0].VStr? && vs[1].VStr? && vs[2].VStr? && vs[3].VStr? && vs[4].VStr?
         && vs[5].VInt? && vs[6].VInt? && vs[7].VDate?
      then Some(WideRow(vs[0].str, vs[1].str, vs[2].str, vs[3].str, vs[4].str,
                        vs[5].num, vs[6].num, vs[7].date))
      else None
  }

  /** Reading a stored artist tuple back as an artist row. */
  function ParseArtistValues(vs: seq<Value>): (r: Option<ArtistRow>)
  {
    if |vs| == 5 && vs[0].VStr? && vs[1].VStr? && vs[2].VInt? && vs[3].VStr? && vs[4].VInt?
    then Some(ArtistRow(vs[0].str, vs[1].str, vs[2].num, vs[3].str, vs[4].num))
    else None
  }

  // ---------------------------------------------------------------- lemmas

  /** The eight-column row carries every field of the track plus the run date. */
  lemma WideRowKeepsTrack(t: Track, date: Date)
    ensures var row := ToTrackRow(Wide, t, date);
      Track(row.id, row.name, row.artist, row.artistId, row.album, row.popularity, row.durationMs) == t
      && row.date == date
  {
  }

  /** The six-column row carries every field but the artist id; two tracks that
      differ only there give the same row. */
  lemma NarrowRowDropsArtistId(t: Track, u: Track, d: Date, e: Date)
    ensures ToTrackRow(Narrow, t, d) == ToTrackRow(Narrow, u, e)
      <==> t.(artistId := u.artistId) == u
  {
  }

  /** Tuples written for a track row read back as that row. */
  lemma TrackValuesRoundTrip(row: TrackRow)
    ensures ParseTrackValues(ShapeOf(row), TrackValues(row)) == Some(row)
  {
  }

  /** Tuples written for an artist row read back as that row. */
  lemma ArtistValuesRoundTrip(row: ArtistRow)
    ensures ParseArtistValues(ArtistValues(row)) == Some(row)
  {
  }

  /** The stored genre field reads back as the artist's genres when there is at
      least one genre and none contains the delimiter. */
  lemma ArtistRowGenres(a: Artist)
    requires |a.genres| > 0
    requires forall i :: 0 <= i < |a.genres| ==> Genres.Sep !in a.genres[i]
    ensures Genres.Split(ToArtistRow(a).genres) == a.genres
    ensures ToArtistRow(a).id == a.id
  {
    Genres.SplitJoin(a.genres);
  }
}

=== FILE: results.dfy ===
/** Failure-carrying wrappers shared by the other modules. */
module Results {

  datatype Option<+T> = None | Some(value: T)

  /** Either a value or the error that stopped the computation. */
  datatype Result<+T, +E> = Ok(value: T) | Err(error: E)
}

=== FILE: seqs.dfy ===
/** Small facts about sequences used by the deduplication and table models. */
module Seqs {

  /** No element occurs twice. */
  predicate Distinct<T(==)>(s: seq<T>)
  {
    forall i, j :: 0 <= i < j < |s| ==> s[i] != s[j]
  }

  /** Position of the first occurrence of `x` in `s`. */
  function FirstIndex<T(==)>(s: seq<T>, x: T): (k: nat)
    requires x in s
    ensures k < |s| && s[k] == x && x !in s[..k]
  {
    if s[0] == x then 0 else 1 + FirstIndex(s[1..], x)
  }

  lemma {:induction false} FirstIndexExtend<T>(s: seq<T>, y: T, x: T)
    requires x in s
    ensures FirstIndex(s + [y], x) == FirstIndex(s, x)
  {
    if s[0] != x {
      assert (s + [y])[1..] == s[1..] + [y];
      FirstIndexExtend(s[1..], y, x);
    }
  }

  lemma FirstIndexNew<T>(s: seq<T>, y: T)
    requires y !in s
    ensures FirstIndex(s + [y], y) == |s|
  {
  }

}

=== FILE: warehouse.dfy ===
/**
 The warehouse as a state machine over named tables, reduced to the three
 statement forms the scripts issue: CREATE TABLE with or without
 IF NOT EXISTS, a multi-row INSERT naming its columns, and SELECT of the
 `id` column. Each statement is committed on its own.
 */
module Warehouse {
  import opened Results
  import opened Seqs
  import opened Records

  datatype Table = Table(columns: seq<Column>, rows: seq<seq<Value>>)

  type Db = map<string, Table>

  datatype SqlError =
    | TableExists(table: string)
    | NoSuchTable(table: string)
    | NoSuchColumn(table: string, column: ColumnName)
    | DuplicateColumn(table: string)
    | ValueCountMismatch(table: string)

  datatype Statement =
    | CreateTable(table: string, columns: seq<Column>, ifNotExists: bool)
    | InsertValues(table: string, targets: seq<ColumnName>, rows: seq<seq<Value>>)

  /** The state after a statement sequence stopped, and the error that stopped it. */
  datatype Outcome = Outcome(db: Db, error: Option<SqlError>)

  function Names(cols: seq<Column>): (ns: seq<ColumnName>)
    ensures |ns| == |cols|
    ensures forall k :: 0 <= k < |cols| ==> ns[k] == cols[k].name
  {
    seq(|cols|, k requires 0 <= k < |cols| => cols[k].name)
  }

  /** Every stored row has one value per column. */
  ghost predicate WellFormed(db: Db)
  {
    forall t :: t in db ==> forall r :: r in db[t].rows ==> |r| == |db[t].columns|
  }

  /** The first listed column the table does not have, if any. */
  function FirstUnknown(cols: seq<ColumnName>, names: seq<ColumnName>): (r: Option<ColumnName>)
    ensures r.None? <==> forall i :: 0 <= i < |cols| ==> cols[i] in names
    ensures r.Some? ==> r.value in cols && r.value !in names
  {
    if |cols| == 0 then None
    else if cols[0] !in names then Some(cols[0])
    else FirstUnknown(cols[1..], names)
  }

  /** A row given for the insert's column list, laid out in table order; columns
      the insert does not name are NULL. */
  function Align(names: seq<ColumnName>, cols: seq<ColumnName>, row: seq<Value>): (r: seq<Value>)
    requires |row| == |cols|
    ensures |r| == |names|
    ensures forall k :: 0 <= k < |names| && names[k] in cols ==> r[k] == row[FirstIndex(cols, names[k])]
    ensures forall k :: 0 <= k < |names| && names[k] !in cols ==> r[k] == VNull
  {
    seq(|names|, k requires 0 <= k < |names| =>
      if names[k] in cols then row[FirstIndex(cols, names[k])] else VNull)
  }

  /** Whether an insert into table `t` of `db` is accepted. */
  predicate InsertAccepted(db: Db, t: string, cols: seq<ColumnName>, rows: seq<seq<Value>>)
  {
    && t in db
    && FirstUnknown(cols, Names(db[t].columns)).None?
    && Distinct(cols)
    && forall i :: 0 <= i < |rows| ==> |rows[i]| == |cols|
  }

  /** Executing one statement. An insert of no rows is never sent: the
      driver splits the row list into pages and an empty list gives none, so
      it cannot fail and changes nothing. */
  function Execute(db: Db, s: Statement): (r: Result<Db, SqlError>)
    ensures s.CreateTable? ==> (r.Ok? <==> s.table !in db || s.ifNotExists)
    ensures s.InsertValues? ==> (r.Ok? <==> |s.rows| == 0 || InsertAccepted(db, s.table, s.targets, s.rows))
    ensures s.InsertValues? && |s.rows| == 0 ==> r == Ok(db)
    ensures r.Ok? ==> db.Keys <= r.value.Keys && r.value.Keys <= db.Keys + {s.table}
    ensures r.Ok? && s.CreateTable? ==> s.table in r.value
    ensures r.Ok? && s.InsertValues? ==> r.value.Keys == db.Keys
    ensures r.Ok? ==> forall t :: t in db && t != s.table ==> r.value[t] == db[t]
    ensures r.Ok? && s.table in db ==> r.value[s.table].columns == db[s.table].columns
    ensures r.Ok? && s.table in db ==> db[s.table].rows <= r.value[s.table].rows
    ensures r.Ok? && s.CreateTable? ==> r.value[s.table] == (if s.table in db then db[s.table] else Table(s.columns, []))
    ensures r.Ok? && s.InsertValues? && s.table in db ==>
      |r.value[s.table].rows| == |db[s.table].rows| + |s.rows|
      && forall i :: 0 <= i < |s.rows| ==>
           r.value[s.table].rows[|db[s.table].rows| + i] == Align(Names(db[s.table].columns), s.targets, s.rows[i])
    ensures r.Err? && s.CreateTable? ==> r.error == TableExists(s.table)
  {
    match s
    case CreateTable(t, cols, ifNotExists) =>
      if t in db then (if ifNotExists then Ok(db) else Err(TableExists(t)))
      else Ok(db[t := Table(cols, [])])
    case InsertValues(t, cols, rows) =>
      if |rows| == 0 then Ok(db)
      else if t !in db then Err(NoSuchTable(t))
      else
        var names := Names(db[t].columns);
        match FirstUnknown(cols, names)
        case Some(c) => Err(NoSuchColumn(t, c))
        case None =>
          if !Distinct(cols) then Err(DuplicateColumn(t))
          else if exists i :: 0 <= i < |rows| && |rows[i]| != |cols| then Err(ValueCountMismatch(t))
          else
            var added := seq(|rows|, i requires 0 <= i < |rows| => Align(names, cols, rows[i]));
            Ok(db[t := db[t].(rows := db[t].rows + added)])
  }

  /** Executing statements in order, each committed; the first error stops the
      sequence and leaves the effects of the statements before it. */
  function ExecuteAll(db: Db, ss: seq<Statement>): (o: Outcome)
    ensures o.db.Keys >= db.Keys
    ensures o.error.Some? ==> |ss| > 0
    decreases |ss|
  {
    if |ss| == 0 then Outcome(db, None)
    else match Execute(db, ss[0])
      case Err(e) => Outcome(db, Some(e))
      case Ok(db') => ExecuteAll(db', ss[1..])
  }

  /** Statements are committed one by one: running `ss` and then `ts` is running
      `ss + ts`, and an error in `ss` stops everything after it. */
  lemma {:induction false} ExecuteAllConcat(db: Db, ss: seq<Statement>, ts: seq<Statement>)
    ensures var o := ExecuteAll(db, ss);
      ExecuteAll(db, ss + ts) == if o.error.Some? then o else ExecuteAll(o.db, ts)
    decreases |ss|
  {
    if |ss| == 0 {
      assert ss + ts == ts;
    } else {
      assert (ss + ts)[0] == ss[0];
      assert (ss + ts)[1..] == ss[1..] + ts;
      match Execute(db, ss[0])
      case Err(_) =>
      case Ok(db') => ExecuteAllConcat(db', ss[1..], ts);
    }
  }

  /** `SELECT id FROM t`: the string ids stored in the table. What it
      returns is stated by `SelectIdsContents`. */
  function SelectIds(db: Db, t: string): (r: Result<set<string>, SqlError>)
    ensures r.Ok? <==> t in db && IdCol in Names(db[t].columns)
    ensures r.Err? && t !in db ==> r.error == NoSuchTable(t)
  {
    if t !in db then Err(NoSuchTable(t))
    else if IdCol !in Names(db[t].columns) then Err(NoSuchColumn(t, IdCol))
    else Ok(IdsIn(db[t], db[t].rows))
  }

  /** The string ids held by `rows`, read as rows of `table`, collected in row order. */
  function IdsIn(table: Table, rows: seq<seq<Value>>): (ids: set<string>)
    decreases |rows|
  {
    if |rows| == 0 then {}
    else
      IdsIn(table, rows[..|rows| - 1])
      + (match IdAt(table, rows[|rows| - 1]) case Some(x) => {x} case None => {})
  }

  /** The string id a row of `table` holds in its `id` column, if it has one. */
  function IdAt(table: Table, row: seq<Value>): (id: Option<string>)
  {
    var names := Names(table.columns);
    if IdCol !in names then None
    else
      var k := FirstIndex(names, IdCol);
      if k < |row| && row[k].VStr? then Some(row[k].str) else None
  }

  /** No two rows of the table hold the same id. */
  ghost predicate KeyUnique(table: Table)
  {
    forall i, j :: 0 <= i < j < |table.rows| && IdAt(table, table.rows[i]).Some? ==>
      IdAt(table, table.rows[i]) != IdAt(table, table.rows[j])
  }

  // ---------------------------------------------------------------- lemmas

  /** CREATE TABLE IF NOT EXISTS never fails, and issuing it a second time
      changes nothing: no table is added or dropped and no content changes. */
  lemma CreateIfNotExistsIdempotent(db: Db, t: string, cols: seq<Column>)
    ensures Execute(db, CreateTable(t, cols, true)).Ok?
    ensures var db1 := Execute(db, CreateTable(t, cols, true)).value;
      Execute(db1, CreateTable(t, cols, true)) == Ok(db1)
      && (forall n :: n in db ==> db1[n] == db[n])
  {
  }

  /** Plain CREATE TABLE on a table that exists fails and changes nothing. */
  lemma CreateOnExistingFails(db: Db, t: string, cols: seq<Column>)
    requires t in db
    ensures Execute(db, CreateTable(t, cols, false)) == Err(TableExists(t))
    ensures ExecuteAll(db, [CreateTable(t, cols, false)]) == Outcome(db, Some(TableExists(t)))
  {
  }

  /** Laying out a row whose insert names exactly the table's columns keeps it as given. */
  lemma AlignIdentity(names: seq<ColumnName>, row: seq<Value>)
    requires Distinct(names) && |row| == |names|
    ensures Align(names, names, row) == row
  {
    forall k | 0 <= k < |names|
      ensures FirstIndex(names, names[k]) == k
    {
      var j := FirstIndex(names, names[k]);
      assert names[j] == names[k];
    }
  }

  /** An accepted insert adds rows exactly as wide as the table. */
  lemma InsertKeepsWidth(db: Db, t: string, targets: seq<ColumnName>, rows: seq<seq<Value>>)
    requires InsertAccepted(db, t, targets, rows)
    requires forall i :: 0 <= i < |db[t].rows| ==> |db[t].rows[i]| == |db[t].columns|
    ensures var after := Execute(db, InsertValues(t, targets, rows)).value[t];
      forall i :: 0 <= i < |after.rows| ==> |after.rows[i]| == |after.columns|
  {
    var before := db[t];
    var s := InsertValues(t, targets, rows);
    if |rows| == 0 {
      assert Execute(db, s) == Ok(db);
    } else {
      var after := Execute(db, s).value[t];
      var n := |before.rows|;
      assert after.columns == before.columns && |after.rows| == n + |rows|;
      assert before.rows == after.rows[..n];
      forall i | 0 <= i < |after.rows|
        ensures |after.rows[i]| == |after.columns|
      {
        if i >= n {
          var j := i - n;
          assert after.rows[n + j] == Align(Names(before.columns), targets, rows[j]);
        } else {
          assert after.rows[i] == before.rows[i];
        }
      }
    }
  }

  /** Statements keep every stored row as wide as its table. */
  lemma ExecuteKeepsWellFormed(db: Db, s: Statement)
    requires WellFormed(db)
    ensures Execute(db, s).Ok? ==> WellFormed(Execute(db, s).value)
  {
    var r := Execute(db, s);
    if r.Ok? && s.InsertValues? && |s.rows| > 0 {
      var t := s.table;
      forall i | 0 <= i < |db[t].rows|
        ensures |db[t].rows[i]| == |db[t].columns|
      {
        assert db[t].rows[i] in db[t].rows;
      }
      InsertKeepsWidth(db, t, s.targets, s.rows);
      var after := r.value[t];
      forall row | row in after.rows
        ensures |row| == |after.columns|
      {
        var i :| 0 <= i < |after.rows| && after.rows[i] == row;
      }
    }
  }

  /** Appending rows whose ids are new and pairwise different keeps a table's
      ids unique. */
  lemma AppendKeepsKeyUnique(before: Table, after: Table, keys: seq<string>)
    requires after.columns == before.columns
    requires before.rows <= after.rows
    requires |after.rows| == |before.rows| + |keys|
    requires KeyUnique(before)
    requires forall i :: 0 <= i < |keys| ==> IdAt(after, after.rows[|before.rows| + i]) == Some(keys[i])
    requires Distinct(keys)
    requires forall row :: row in before.rows && IdAt(before, row).Some? ==> IdAt(before, row).value !in keys
    ensures KeyUnique(after)
  {
    var n := |before.rows|;
    forall i, j | 0 <= i < j < |after.rows| && IdAt(after, after.rows[i]).Some?
      ensures IdAt(after, after.rows[i]) != IdAt(after, after.rows[j])
    {
      if j < n {
        assert after.rows[i] == before.rows[i] && after.rows[j] == before.rows[j];
        assert IdAt(after, after.rows[i]) == IdAt(before, before.rows[i]);
        assert IdAt(after, after.rows[j]) == IdAt(before, before.rows[j]);
      } else if i < n {
        assert after.rows[i] == before.rows[i];
        assert IdAt(after, after.rows[i]) == IdAt(before, before.rows[i]);
        assert IdAt(after, after.rows[j]) == Some(keys[j - n]);
      } else {
        assert IdAt(after, after.rows[i]) == Some(keys[i - n]);
        assert IdAt(after, after.rows[j]) == Some(keys[j - n]);
      }
    }
  }

  /** The collected ids are exactly the ids some row holds. */
  lemma {:induction false} IdsInContents(table: Table, rows: seq<seq<Value>>)
    ensures forall i :: 0 <= i < |rows| && IdAt(table, rows[i]).Some? ==> IdAt(table, rows[i]).value in IdsIn(table, rows)
    ensures forall x :: x in IdsIn(table, rows) ==> exists i :: 0 <= i < |rows| && IdAt(table, rows[i]) == Some(x)
    decreases |rows|
  {
    if |rows| > 0 {
      var init := rows[..|rows| - 1];
      IdsInContents(table, init);
      forall i | 0 <= i < |init|
        ensures rows[i] == init[i]
      {
      }
    }
  }

  /** The id query returns exactly the string ids stored in the table. */
  lemma SelectIdsContents(db: Db, t: string)
    requires SelectIds(db, t).Ok?
    ensures forall row: seq<Value> :: row in db[t].rows && IdAt(db[t], row).Some? ==>
      IdAt(db[t], row).value in SelectIds(db, t).value
    ensures forall x :: x in SelectIds(db, t).value ==>
      exists row: seq<Value> :: row in db[t].rows && IdAt(db[t], row) == Some(x)
  {
    var rows := db[t].rows;
    IdsInContents(db[t], rows);
    forall row: seq<Value> | row in rows && IdAt(db[t], row).Some?
      ensures IdAt(db[t], row).value in SelectIds(db, t).value
    {
      var i :| 0 <= i < |rows| && rows[i] == row;
    }
    forall x | x in SelectIds(db, t).value
      ensures exists row: seq<Value> :: row in rows && IdAt(db[t], row) == Some(x)
    {
      var i :| 0 <= i < |rows| && IdAt(db[t], rows[i]) == Some(x);
      assert rows[i] in rows;
    }
  }

  /** Appending rows never loses a stored id. */
  lemma SelectIdsGrow(db: Db, db': Db, t: string)
    requires t in db && t in db'
    requires db'[t].columns == db[t].columns && db[t].rows <= db'[t].rows
    requires SelectIds(db, t).Ok?
    ensures SelectIds(db', t).Ok?
    ensures SelectIds(db, t).value <= SelectIds(db', t).value
  {
    SelectIdsContents(db, t);
    SelectIdsContents(db', t);
    forall x | x in SelectIds(db, t).value
      ensures x in SelectIds(db', t).value
    {
      var row :| row in db[t].rows && IdAt(db[t], row) == Some(x);
      assert IdAt(db'[t], row) == IdAt(db[t], row);
    }
  }

  /** The warehouse after a successful CREATE TABLE: unchanged when the table
      already exists, otherwise with the new table added empty. */
  function Created(db: Db, t: string, cols: seq<Column>): (c: Db)
  {
    if t in db then db else db[t := Table(cols, [])]
  }

  /** Two successful table creations, each committed, give the two creations
      applied in order. */
  lemma TwoCreatesResult(db: Db, s1: Statement, s2: Statement)
    requires s1.CreateTable? && s2.CreateTable?
    requires ExecuteAll(db, [s1, s2]).error.None?
    ensures ExecuteAll(db, [s1, s2]).db == Created(Created(db, s1.table, s1.columns), s2.table, s2.columns)
    ensures !s1.ifNotExists ==> s1.table !in db
    ensures !s2.ifNotExists ==> s2.table !in Created(db, s1.table, s1.columns)
  {
    assert [s1, s2][1..] == [s2];
    var db1 := Execute(db, s1).value;
    assert ExecuteAll(db, [s1, s2]) == ExecuteAll(db1, [s2]);
    var db2 := Execute(db1, s2).value;
    assert ExecuteAll(db1, [s2]) == ExecuteAll(db2, []);
  }

  /** Creating two differently named tables keeps every existing table and
      adds each missing one empty. */
  lemma CreatedTwice(db: Db, t1: string, c1: seq<Column>, t2: string, c2: seq<Column>)
    requires t1 != t2
    ensures var c := Created(Created(db, t1, c1), t2, c2);
      && c.Keys == db.Keys + {t1, t2}
      && (forall t :: t in db ==> c[t] == db[t])
      && (t1 !in db ==> c[t1] == Table(c1, []))
      && (t2 !in db ==> c[t2] == Table(c2, []))
  {
  }

  /** Two successful table creations, each committed, on different names. */
  lemma TwoCreates(db: Db, s1: Statement, s2: Statement)
    requires s1.CreateTable? && s2.CreateTable? && s1.table != s2.table
    requires ExecuteAll(db, [s1, s2]).error.None?
    ensures var c := ExecuteAll(db, [s1, s2]).db;
      && c.Keys == db.Keys + {s1.table, s2.table}
      && (forall t :: t in db ==> c[t] == db[t])
      && (s1.table !in db ==> c[s1.table] == Table(s1.columns, []))
      && (s2.table !in db ==> c[s2.table] == Table(s2.columns, []))
      && (!s1.ifNotExists ==> s1.table !in db)
      && (!s2.ifNotExists ==> s2.table !in db)
  {
    TwoCreatesResult(db, s1, s2);
    CreatedTwice(db, s1.table, s1.columns, s2.table, s2.columns);
  }
}
